=== FILE: README.md ===
# card-behaviour in Dafny

This is a model of the card library in the Unity project card-behaviour, together with proofs about it. It covers two parts.

**Card primitives and collection mechanics.**
- The `PlayingCard` value comes in two variants:
  - `playing_card.dfy` (module `PlayingCard`): Ace is high, values 2..14.
  - `ace_low_card.dfy` (module `AceLowCard`): Ace is low, values 1..13.
  - Both share the suits and their codes from `card_suits.dfy`.
- `CardCollection<T>` (`card_collection.dfy`) is a class whose `cards` field is the list that the source mutates. It has these operations:
  - `Draw`, which uses the `CheckEmpty` failure and clamps the position;
  - `Random`;
  - the step `Shuffle`;
  - `AddCard`, which either appends or inserts;
  - the two constructors.
- `Deck.DealHands` (`deck.dfy`) is the round-robin deal.
- The two `PlayingCardDeck` builders (`playing_card_deck.dfy` and `ace_low_card_deck.dfy`) build the 52-card deck, in order or with random insertion.

**The poker hand evaluator.**
- `PokerHand` and its rank order are in `poker_hand.dfy`.
- `PokerHandRankChecker` is in two files:
  - its shared helpers `EnoughCards` and `GetCardRanks` are in `card_ranks.dfy`;
  - the checker table and `FindBestHand` are in `hand_rank_checker.dfy`.
- There is one file per checker:
  - `set_checkers.dfy`: pair, two pair, three of a kind, full house, four of a kind;
  - `flush_checker.dfy`;
  - `straight_checker.dfy`, which includes the A-2-3-4-5 wheel;
  - `straight_flush_checker.dfy`;
  - `royal_flush_checker.dfy`.

**How the checkers are written.** Each checker is:
- a specification function of the pool and the hand size, in the source's own terms (first card of each value, suit groups in `Suits` order, strict `>` when choosing the largest group);
- a `CheckHand` method that follows the source's loops and is proved equal to that function;
- lemmas that state what the function means: when a hand is found, what it holds, and how it relates to the other checkers.

**Modelling conventions.**
- `Result`/`Option` (in `wrappers.dfy`) stand for the exceptions and `null` results of the source.
- Dafny's `==` on cards is the source's `Equals`: same suit and same value.
- Random indices are supplied by the caller, always inside the range `UnityEngine.Random.Range(0, Count)` can return.
- The source's grouping dictionaries are enumerated in insertion order:
  - value groups in order of first appearance in the pool;
  - suit groups in the order Spade, Diamond, Club, Heart.

**Corrected crash defects.** Three defects in the source crash the program. The model corrects each one, and "## Findings" records them:
- The deal's result list gets `numPlayers` empty hands up front.
- The straight-flush checker builds its four suit groups afresh on each call.
- The rank walk skips HighCard, which has no table entry, and then builds the high-card fallback.

**Quirks kept as written.** The source's other quirks are modelled as they are:
- A straight flush found in only one suit keeps the tag Straight.
- Set cards are placed first only when the two chosen groups have the same size.
- An over-long set hand is truncated to exactly five cards, the first five placed (`SetCheckers.PlacedLeads`).
- The royal filter keeps only values above Ten. The model proves that, as a result, the royal-flush checker can never find a hand.

## Model

| member | source | states |
|---|---|---|
| CardSuits.SuitIndex | Assets/Demos/Scripts/PlayingCard.cs:12-17 | a suit's enum value is its position in `Suits` |
| CardSuits.SuitString | Assets/Demos/Scripts/PlayingCard.cs:111-123 | each suit renders as one letter from S, D, C, H |
| CardSuits.SuitsEnumerateEachOnce | Assets/Demos/Scripts/PlayingCard.cs:34 | `Suits` lists all four suits, each exactly once |
| CardSuits.SuitCodeRoundTrip | Assets/Demos/Scripts/PlayingCard.cs:111-123 | a suit letter decodes back to its suit, so distinct suits have distinct letters |
| CardSuits.Decimal | Assets/Demos/Scripts/PlayingCard.cs:107 | a value's numeral is made of digits and has one digit below 10 and two from 10 to 99 |
| CardSuits.DecimalRoundTrip | Assets/Demos/Scripts/PlayingCard.cs:107 | reading a numeral back gives the number it renders |
| PlayingCard.CompareTo | Assets/Demos/Scripts/PlayingCard.cs:45-54 | null compares as 1; a foreign card fails; otherwise the sign follows the values alone |
| PlayingCard.Equals | Assets/Demos/Scripts/PlayingCard.cs:56-62 | equal exactly when the other object is a playing card with the same suit and value |
| PlayingCard.EqualsConsistent | Assets/Demos/Scripts/PlayingCard.cs:56-66 | equality is reflexive, symmetric and transitive; equal cards hash equally; null and foreign cards are never equal |
| PlayingCard.OrderIgnoresSuit | Assets/Demos/Scripts/PlayingCard.cs:45-62 | cards of equal value and different suits compare as 0 but are not equal |
| PlayingCard.ValueString | Assets/Demos/Scripts/PlayingCard.cs:91-109 | fails exactly outside 2..14; the code is a numeral exactly for 2..10, with no leading zero (one character, two for Ten), and it reads back as the value, so 11..14 render as J, Q, K, A |
| PlayingCard.ToString | Assets/Demos/Scripts/PlayingCard.cs:83-85 | fails exactly for an invalid value; otherwise it has 2 characters (3 for Ten), its value part is a numeral exactly for 2..10, and it decodes back to the card |
| PlayingCard.ShortFormsDistinct | Assets/Demos/Scripts/PlayingCard.cs:83-123 | distinct cards render to distinct short strings |
| PlayingCard.ValuesAscending | Assets/Demos/Scripts/PlayingCard.cs:35 | `Values` lists exactly the valid values 2..14 in ascending order |
| AceLowCard.CompareTo | Assets/Demo/Scripts/PlayingCard.cs:28-37 | null compares as 1; a foreign card fails; otherwise the sign follows the values alone |
| AceLowCard.Equals | Assets/Demo/Scripts/PlayingCard.cs:39-45 | equal exactly when the other object is a playing card with the same suit and value |
| AceLowCard.AceIsLowest | Assets/Demo/Scripts/PlayingCard.cs:28-45 | an Ace compares below every other valid card in either direction and equals none of them |
| AceLowCard.EqualsConsistent | Assets/Demo/Scripts/PlayingCard.cs:39-49 | equality is reflexive, symmetric and transitive; equal cards hash equally; null and foreign cards are never equal |
| AceLowCard.ValueString | Assets/Demo/Scripts/PlayingCard.cs:74-91 | fails exactly outside 1..13; the code is a numeral exactly for 2..10, with no leading zero (one character, two for 10), and it reads back as the value, so 1, 11, 12, 13 render as A, J, Q, K |
| AceLowCard.LongValueString | Assets/Demo/Scripts/PlayingCard.cs:93-110 | fails exactly outside 1..13; the word is a numeral exactly for 2..10, with no leading zero (one character, two for 10), and it reads back as the value, so 1, 11, 12, 13 render as Ace, Jack, Queen, King |
| AceLowCard.ToString | Assets/Demo/Scripts/PlayingCard.cs:66-68 | fails exactly for an invalid value; otherwise it has 2 characters (3 for 10), its value part is a numeral exactly for 2..10, and it decodes back to the card, so the Ace of Spades is "AS" |
| AceLowCard.ShortFormsDistinct | Assets/Demo/Scripts/PlayingCard.cs:66-124 | distinct cards render to distinct short strings |
| PokerHands.Strength | Assets/Demos/Scripts/PokerHand.cs:4-15 | a rank's integer is its position in the declaration |
| PokerHands.RanksInDeclarationOrder | Assets/Demos/Scripts/PokerHand.cs:4-15 | the ranks ascend from HighCard to RoyalFlush, and the walk order is exactly their reversal |
| PokerHands.NewPokerHand | Assets/Demos/Scripts/PokerHand.cs:32-39 | fails exactly below five cards; otherwise it keeps the cards in order and the rank as given, with no upper bound |
| PokerHands.RelabelKeepsCards | Assets/Demos/Scripts/PokerHand.cs:26 | reassigning the rank changes only the tag, and the hand stays valid |
| CardCollections.ClampPosition | Assets/Scripts/CardCollection.cs:39-41 | a position inside the collection is kept; any other position becomes the last index |
| CardCollections.RemoveFirst | Assets/Scripts/CardCollection.cs:44 | removing a present card shortens the list by one; an absent card leaves it unchanged |
| CardCollections.RemoveFirstCount | Assets/Scripts/CardCollection.cs:43-45 | removal takes exactly one copy of the card out of the multiset |
| CardCollections.RemoveFirstAt | Assets/Scripts/CardCollection.cs:44 | the first occurrence is the one removed, and the rest keep their order |
| CardCollections.DrawFromDistinct | Assets/Scripts/CardCollection.cs:43-45 | without duplicates, the card at the drawn position is removed, the rest keep their order, and the card is gone |
| CardCollections.Swap | Assets/Scripts/CardCollection.cs:61-64 | the two positions trade cards and every other position is unchanged |
| CardCollections.SwapPermutes | Assets/Scripts/CardCollection.cs:61-64 | a swap keeps the multiset |
| CardCollections.StepShufflePermutes | Assets/Scripts/CardCollection.cs:59-66 | the step shuffle keeps the multiset |
| CardCollections.CardCollection.constructor | Assets/Scripts/CardCollection.cs:16-18 | a new collection is empty |
| CardCollections.CardCollection.FromCards | Assets/Scripts/CardCollection.cs:20-26 | the collection copies its source in order |
| CardCollections.CardCollection.Draw | Assets/Scripts/CardCollection.cs:36-46 | an empty collection fails and is unchanged; otherwise it returns the card at the clamped position, removes its first copy, and shrinks by one card of the multiset |
| CardCollections.CardCollection.Random | Assets/Scripts/CardCollection.cs:52-54 | draws the card at the random index, with the same empty-collection failure |
| CardCollections.CardCollection.Shuffle | Assets/Scripts/CardCollection.cs:59-66 | performs Count-1 swaps of position i with the i-th random index; keeps the count and the multiset; does nothing below two cards |
| CardCollections.CardCollection.AddCard | Assets/Scripts/CardCollection.cs:73-79 | appends, or inserts at the random index; earlier cards are kept and the multiset grows by the card |
| Decks.DealtHand | Assets/Scripts/Deck.cs:26-30 | after `rounds` rounds each hand holds `rounds` cards |
| Decks.DealtHandPositions | Assets/Scripts/Deck.cs:26-30 | hand h holds the deck's cards at positions h, h+numPlayers, h+2·numPlayers, … in that order |
| Decks.DealHands | Assets/Scripts/Deck.cs:20-33 | more cards than the deck holds fails with InsufficientCards, and a negative numPlayers fails with OutOfRange; both leave the deck unchanged; otherwise it returns numPlayers distinct new hands, each dealt round-robin, and the deck loses exactly its first handSize·numPlayers cards |
| Decks.DealRound | Assets/Scripts/Deck.cs:27-29 | one round gives each hand, in seat order, the deck's next card |
| Decks.DealOne | Assets/Scripts/Deck.cs:28 | one draw moves the deck's front card to the end of the hand |
| Decks.DealKeepsCards | Assets/Scripts/Deck.cs:26-30 | the dealt hands and the remaining deck together are the original multiset |
| Decks.DealAsWritten | Assets/Scripts/Deck.cs:21-30 | as written, the deal never returns a hand |
| Decks.DealAsWrittenFails | Assets/Scripts/Deck.cs:25-28 | as written, any deal with a card to hand out fails on `result[hand]` |
| PlayingCardDeck.OrderedDeck | Assets/Demos/Scripts/PlayingCardDeck.cs:12-18 | the unshuffled deck has 13 × 4 = 52 cards |
| PlayingCardDeck.OrderedDeckAt | Assets/Demos/Scripts/PlayingCardDeck.cs:13-17 | index i holds value 2 + i/4 in suit `Suits[i % 4]` |
| PlayingCardDeck.OrderedDeckComplete | Assets/Demos/Scripts/PlayingCardDeck.cs:13-17 | every card with a value in 2..14 appears exactly once, and no other card appears |
| PlayingCardDeck.AddRow | Assets/Demos/Scripts/PlayingCardDeck.cs:14-17 | adding the four suits of one value grows the deck by that value's row, in order or as a multiset when inserting at random |
| PlayingCardDeck.NewDeck | Assets/Demos/Scripts/PlayingCardDeck.cs:12-18 | the built deck is the ordered deck, or a permutation of it when shuffled |
| AceLowCardDeck.OrderedDeck | Assets/Demo/Scripts/PlayingCardDeck.cs:12-18 | the unshuffled deck has 13 × 4 = 52 cards |
| AceLowCardDeck.OrderedDeckAt | Assets/Demo/Scripts/PlayingCardDeck.cs:13-17 | index i holds value 1 + i/4 in suit `Suits[i % 4]` |
| AceLowCardDeck.OrderedDeckComplete | Assets/Demo/Scripts/PlayingCardDeck.cs:13-17 | every card with a value in 1..13 appears exactly once, and no other card appears |
| AceLowCardDeck.AddRow | Assets/Demo/Scripts/PlayingCardDeck.cs:14-17 | adding the four suits of one value grows the deck by that value's row, in order or as a multiset when inserting at random |
| AceLowCardDeck.NewDeck | Assets/Demo/Scripts/PlayingCardDeck.cs:12-18 | the built deck is the ordered deck, or a permutation of it when shuffled |
| CardRanks.WithValue | Assets/Demos/Scripts/HandCheckers/PokerHandRankChecker.cs:46-55 | a value group is never longer than the pool |
| CardRanks.WithValueMembers | Assets/Demos/Scripts/HandCheckers/PokerHandRankChecker.cs:46-55 | a value group holds exactly the pool's cards of that value |
| CardRanks.RankOrder | Assets/Demos/Scripts/HandCheckers/PokerHandRankChecker.cs:46-55 | the dictionary's keys, in enumeration order, are free of duplicates |
| CardRanks.RankOrderMembers | Assets/Demos/Scripts/HandCheckers/PokerHandRankChecker.cs:46-55 | a value is a key exactly when its group is non-empty |
| CardRanks.GetCardRanks | Assets/Demos/Scripts/HandCheckers/PokerHandRankChecker.cs:46-55 | the dictionary built has exactly the keys in first-appearance order, each mapped to its value group |
| CardRanks.GroupInPoolOrder | Assets/Demos/Scripts/HandCheckers/PokerHandRankChecker.cs:46-55 | each group keeps pool order |
| CardRanks.GroupCounts | Assets/Demos/Scripts/HandCheckers/PokerHandRankChecker.cs:46-55 | a group holds every copy of each card of its value and no card of another value |
| CardRanks.CardInOneGroup | Assets/Demos/Scripts/HandCheckers/PokerHandRankChecker.cs:46-55 | every pool card's value is a key, and the card lies in that group and in no other |
| CardRanks.GroupsPartition | Assets/Demos/Scripts/HandCheckers/PokerHandRankChecker.cs:46-55 | the group sizes sum to the pool size |
| CardRanks.GroupCount | Assets/Demos/Scripts/HandCheckers/PokerHandRankChecker.cs:46-55 | there are as many groups as distinct values |
| SetCheckers.PickTopTwo | Assets/Demos/Scripts/HandCheckers/SetCheckers.cs:29-36 | the chosen sets are a largest group and a largest among the rest, and with strict `>` the earliest key wins ties |
| SetCheckers.ChooseSets | Assets/Demos/Scripts/HandCheckers/SetCheckers.cs:29-36 | the loop over the dictionary ends with the two chosen groups |
| SetCheckers.Fill | Assets/Demos/Scripts/HandCheckers/SetCheckers.cs:73-81 | a filled hand has exactly n cards, keeps the placed cards in front, takes the rest from the pool, and gains no duplicate |
| SetCheckers.FillHand | Assets/Demos/Scripts/HandCheckers/SetCheckers.cs:73-84 | the fill loop adds unplaced pool cards in pool order until the hand is full, or runs out |
| SetCheckers.CheckHand | Assets/Demos/Scripts/HandCheckers/SetCheckers.cs:21-85 | one call of a set checker computes the set checker's answer |
| SetCheckers.ChosenSetsQualify | Assets/Demos/Scripts/HandCheckers/SetCheckers.cs:38-43 | the size tests on the chosen sets pass exactly when the pool has groups large enough for the checker |
| SetCheckers.HasSetsChosen | Assets/Demos/Scripts/HandCheckers/SetCheckers.cs:38-43 | when suitable groups exist, the chosen ones pass the size tests |
| SetCheckers.SetCheckerFinds | Assets/Demos/Scripts/HandCheckers/SetCheckers.cs:22-43 | the checker finds nothing exactly when the pool is too small or lacks groups of the checker's sizes |
| SetCheckers.FillSucceeds | Assets/Demos/Scripts/HandCheckers/SetCheckers.cs:73-84 | with enough unplaced cards in a duplicate-free pool, the fill completes |
| SetCheckers.DistinctPoolBuilds | Assets/Demos/Scripts/HandCheckers/SetCheckers.cs:73-84 | on a duplicate-free pool the "should never get here" failure is unreachable |
| SetCheckers.SetHandShape | Assets/Demos/Scripts/HandCheckers/SetCheckers.cs:64-81 | a found hand carries the checker's rank and holds only pool cards; it has exactly five cards when the placed sets are longer than n, and n cards otherwise |
| SetCheckers.UnequalSetsTakePoolPrefix | Assets/Demos/Scripts/HandCheckers/SetCheckers.cs:46-81 | when the two sets differ in size nothing is placed, and the hand is the first n pool cards |
| SetCheckers.FillPrefix | Assets/Demos/Scripts/HandCheckers/SetCheckers.cs:73-81 | filling from cards not yet placed appends the pool's first cards in order |
| SetCheckers.EqualSetsLead | Assets/Demos/Scripts/HandCheckers/SetCheckers.cs:48-67 | equal-size sets lead the hand, the higher-value set first; when both together are longer than n, the hand is their first five cards |
| SetCheckers.PlacedLeads | Assets/Demos/Scripts/HandCheckers/SetCheckers.cs:46-81 | placed cards that fit in the hand are its first cards; placed cards longer than the hand are cut to their first five, which are the whole hand |
| FlushChecker.SuitCardsMembers | Assets/Demos/Scripts/HandCheckers/FlushChecker.cs:27-29 | a suit group holds exactly the pool's cards of that suit, in pool order |
| FlushChecker.MostInSuit | Assets/Demos/Scripts/HandCheckers/FlushChecker.cs:27-34 | `mostInSuit` is set exactly when the pool is non-empty |
| FlushChecker.MostInSuitLargest | Assets/Demos/Scripts/HandCheckers/FlushChecker.cs:27-34 | `mostInSuit` ends on a largest suit, and on ties on the one that reached that size first |
| FlushChecker.GroupSuits | Assets/Demos/Scripts/HandCheckers/FlushChecker.cs:23-34 | after clearing, the loop leaves each suit's cards in its list and `mostInSuit` on the followed suit |
| FlushChecker.CheckHand | Assets/Demos/Scripts/HandCheckers/FlushChecker.cs:18-41 | one call of the flush checker computes the flush checker's answer |
| FlushChecker.FlushFinds | Assets/Demos/Scripts/HandCheckers/FlushChecker.cs:19-38 | a flush is found exactly when the pool has n cards and some suit has n cards |
| FlushChecker.FlushHandShape | Assets/Demos/Scripts/HandCheckers/FlushChecker.cs:40 | a flush is tagged Flush and is the first n cards, in pool order, of the suit `mostInSuit` ends on; no other suit has more cards |
| StraightChecker.RunUpMeaning | Assets/Demos/Scripts/HandCheckers/StraightChecker.cs:21-32 | the streak length from v is at least len exactly when every value from v to v+len-1 is present |
| StraightChecker.RunShape | Assets/Demos/Scripts/HandCheckers/StraightChecker.cs:24 | a streak has descending consecutive values, each card the first of its value in pool order |
| StraightChecker.TopRun | Assets/Demos/Scripts/HandCheckers/StraightChecker.cs:21-32 | a value found by the downward scan is where a streak of exactly n cards ends |
| StraightChecker.StreakStep | Assets/Demos/Scripts/HandCheckers/StraightChecker.cs:22-31 | a missing value resets the streak; a present one extends it by that value's first card |
| StraightChecker.ScanStops | Assets/Demos/Scripts/HandCheckers/StraightChecker.cs:25-28 | the scan stops at the first value whose streak reaches n |
| StraightChecker.Scan | Assets/Demos/Scripts/HandCheckers/StraightChecker.cs:21-32 | the loop returns the highest n-card streak when there is one, else the streak that ends at Two |
| StraightChecker.CheckHand | Assets/Demos/Scripts/HandCheckers/StraightChecker.cs:12-46 | one call of the straight checker computes the straight checker's answer |
| StraightChecker.StraightIsHighest | Assets/Demos/Scripts/HandCheckers/StraightChecker.cs:25-28 | the straight returned is the highest: no higher value has a streak of n |
| StraightChecker.StraightFinds | Assets/Demos/Scripts/HandCheckers/StraightChecker.cs:13-45 | a straight is found exactly when the pool has n cards and has n consecutive values, or n-1 values from Two up and an Ace |
| StraightChecker.WheelShape | Assets/Demos/Scripts/HandCheckers/StraightChecker.cs:35-42 | the wheel is the streak from Two with the Ace's first card appended last |
| StraightChecker.StraightHandShape | Assets/Demos/Scripts/HandCheckers/StraightChecker.cs:21-42 | a straight is n pool cards tagged Straight, each the first pool card of its value, descending and consecutive or a wheel (n down to 2, then the Ace); at n = 14 the wheel holds the Ace's first card twice, first and last |
| StraightChecker.NoStraightAboveTen | Assets/Demos/Scripts/HandCheckers/StraightChecker.cs:21-42 | a pool of cards above Ten holds no straight of five or more |
| StraightFlushChecker.FoundMembers | Assets/Demos/Scripts/HandCheckers/StraightFlushChecker.cs:37-43 | the hand list keeps exactly the straights found, in suit order |
| StraightFlushChecker.SuitStraightsShape | Assets/Demos/Scripts/HandCheckers/StraightFlushChecker.cs:37-43 | every per-suit straight is n pool cards of one suit, tagged Straight |
| StraightFlushChecker.HighestIndex | Assets/Demos/Scripts/HandCheckers/StraightFlushChecker.cs:55-60 | the chosen position lies in the list |
| StraightFlushChecker.HighestIsMax | Assets/Demos/Scripts/HandCheckers/StraightFlushChecker.cs:55-60 | the chosen straight has the highest first card, and every earlier one has a strictly lower one |
| StraightFlushChecker.PickHighest | Assets/Demos/Scripts/HandCheckers/StraightFlushChecker.cs:55-60 | the accumulator loop picks the highest straight, keeping the earlier one on ties |
| StraightFlushChecker.CheckHand | Assets/Demos/Scripts/HandCheckers/StraightFlushChecker.cs:13-64 | one call of the straight-flush checker computes the straight-flush checker's answer |
| StraightFlushChecker.SuitStraightsFound | Assets/Demos/Scripts/HandCheckers/StraightFlushChecker.cs:37-47 | some straight is found exactly when some suit's group makes one |
| StraightFlushChecker.StraightFlushFinds | Assets/Demos/Scripts/HandCheckers/StraightFlushChecker.cs:22-47 | a hand is found exactly when the pool has n cards and some suit makes a straight; the largest-suit test never changes that |
| StraightFlushChecker.StraightFlushShape | Assets/Demos/Scripts/HandCheckers/StraightFlushChecker.cs:37-62 | the hand is n pool cards of one suit, tagged Straight when one suit makes a straight and StraightFlush when several do |
| StraightFlushChecker.StraightFlushIsHighest | Assets/Demos/Scripts/HandCheckers/StraightFlushChecker.cs:55-62 | among several straights the returned one has the highest first card, and earlier suits' straights are strictly lower |
| StraightFlushChecker.StraightFlushHandAsWritten | Assets/Demos/Scripts/HandCheckers/StraightFlushChecker.cs:9-20 | as written, the checker never returns a hand |
| StraightFlushChecker.StraightFlushAsWrittenFails | Assets/Demos/Scripts/HandCheckers/StraightFlushChecker.cs:18-20 | as written, every pool that holds a straight flush fails on the unallocated suit dictionary |
| RoyalFlushChecker.RoyalCardsMembers | Assets/Demos/Scripts/HandCheckers/RoyalFlushChecker.cs:16 | the filter keeps exactly the cards above Ten, in pool order |
| RoyalFlushChecker.CheckHand | Assets/Demos/Scripts/HandCheckers/RoyalFlushChecker.cs:14-27 | one call of the royal-flush checker computes the royal-flush checker's answer |
| RoyalFlushChecker.RoyalFlushFinds | Assets/Demos/Scripts/HandCheckers/RoyalFlushChecker.cs:16-26 | a hand is found exactly when n cards survive the filter and some suit among them makes a straight |
| RoyalFlushChecker.RoyalFlushShape | Assets/Demos/Scripts/HandCheckers/RoyalFlushChecker.cs:16-26 | a found hand would be n pool cards of one suit, all above Ten, tagged RoyalFlush; since RoyalNeverMatches shows no hand is found for n ≥ 5, this holds vacuously and says nothing about an actual hand |
| RoyalFlushChecker.RoyalNeverMatches | Assets/Demos/Scripts/HandCheckers/RoyalFlushChecker.cs:16 | for five or more cards the checker never finds a hand |
| HandRankChecker.CheckerTable | Assets/Demos/Scripts/HandCheckers/PokerHandRankChecker.cs:9-23 | every rank but HighCard has an entry; the walk visits the nine entries strongest first, then HighCard; each set entry reports its own rank |
| HandRankChecker.CheckWith | Assets/Demos/Scripts/HandCheckers/PokerHandRankChecker.cs:30 | calling an entry's checker gives that checker's answer |
| HandRankChecker.FindBestHand | Assets/Demos/Scripts/HandCheckers/PokerHandRankChecker.cs:28-36 | the walk computes the best-hand answer |
| HandRankChecker.RoyalEntry | Assets/Demos/Scripts/HandCheckers/PokerHandRankChecker.cs:11 | the royal-flush entry never yields a hand and never fails |
| HandRankChecker.StraightFlushEntry | Assets/Demos/Scripts/HandCheckers/PokerHandRankChecker.cs:12 | the straight-flush entry yields Straight or StraightFlush hands of n pool cards, and none from a short pool |
| HandRankChecker.SetEntry | Assets/Demos/Scripts/HandCheckers/PokerHandRankChecker.cs:13-19 | a set entry yields hands of its own rank of n or five pool cards, none from a short pool, and never fails on a duplicate-free pool |
| HandRankChecker.FlushEntry | Assets/Demos/Scripts/HandCheckers/PokerHandRankChecker.cs:15 | the flush entry yields Flush hands of n pool cards, and none from a short pool |
| HandRankChecker.StraightEntry | Assets/Demos/Scripts/HandCheckers/PokerHandRankChecker.cs:16 | the straight entry yields Straight hands of n pool cards, and none from a short pool |
| HandRankChecker.ConsultShape | Assets/Demos/Scripts/HandCheckers/PokerHandRankChecker.cs:30 | every entry's answer is a hand of its own rank (or Straight for the straight-flush entry) made of pool cards |
| HandRankChecker.FirstOfIsFirst | Assets/Demos/Scripts/HandCheckers/PokerHandRankChecker.cs:29-34 | the walk finds nothing exactly when every entry finds nothing; otherwise it returns an answer whose predecessors all found nothing |
| HandRankChecker.FirstOfWins | Assets/Demos/Scripts/HandCheckers/PokerHandRankChecker.cs:30-33 | once an entry answers, no later entry is consulted |
| HandRankChecker.BestHandIsFirstMatch | Assets/Demos/Scripts/HandCheckers/PokerHandRankChecker.cs:29-34 | the best hand is the first entry's hand along the strongest-first order |
| HandRankChecker.HighCardFallback | Assets/Demos/Scripts/HandCheckers/PokerHandRankChecker.cs:35 | when no entry matches, the result is a HighCard hand of the first n cards in input order |
| HandRankChecker.BestHandShape | Assets/Demos/Scripts/HandCheckers/PokerHandRankChecker.cs:28-36 | a best hand is valid, has n or five pool cards, and is never tagged RoyalFlush |
| HandRankChecker.BestHandIsHighCard | Assets/Demos/Scripts/HandCheckers/PokerHandRankChecker.cs:28-36 | the best hand is HighCard exactly when no entry matches |
| HandRankChecker.BestHandSucceeds | Assets/Demos/Scripts/HandCheckers/PokerHandRankChecker.cs:28-36 | a short pool fails on the fallback's range; a duplicate-free pool of n cards always gets a hand |
| HandRankChecker.ConsultAsWritten | Assets/Demos/Scripts/HandCheckers/PokerHandRankChecker.cs:30 | as written, a lookup agrees with the table for the nine entries and is a missing key for HighCard |
| HandRankChecker.MissingHighCardEntryFails | Assets/Demos/Scripts/HandCheckers/PokerHandRankChecker.cs:29-35 | as written, a pool that matches no entry fails on the HighCard lookup, where the fallback would give a high-card hand |

## Left out

- The random-number generator (`UnityEngine.Random.Range`, `Assets/Scripts/CardCollection.cs:14`) is not modelled.
  - Each random index is a caller-supplied parameter, inside the range the generator can return.
  - The model makes no claim about the distribution of `Shuffle` or of random insertion.
- `ToLongString` in both card variants is not modelled. Its format string has two placeholders but receives one argument, so it can only throw.
- `operator ==` and `operator !=` on `PlayingCard` are not modelled. Comparing with `null` recurses into the same operator. The model uses `Equals`, which is what `List.Remove` and `Contains` call.
- Null lists and null cards are not represented.
  - `PokerHands.NewPokerHand`: does not model the null-list case of the size check, because the model has no null lists.
- `Assets/Scripts/Card.cs` and `Assets/Scripts/Hand.cs` are not part of this model.
  - A card's name and description do nothing for the core.
  - A hand is the same `CardCollection` type.
- The Unity behaviours and prefab lists are not part of this model: animation, input, UI and scene objects.
- The checkers' singleton instances and scratch fields (`RankCards`, `HighSet`, `SecondHighSet`, `cardsInStraight`, `flushHands`, `SuitCards`) are not modelled. Each call uses fresh local state.
  - `SetCheckers.CheckHand`: does not model `HighSet` and `SecondHighSet` surviving from an earlier call. The early returns skip the clearing, so in the source a stale set can leak into the next call.
  - The model starts both sets empty on every call, as they are at construction.
- `CardSuits.SuitString`: does not model the `InvalidOperationException` for a suit outside the four declared ones (`Assets/Demos/Scripts/PlayingCard.cs:122`, `Assets/Demo/Scripts/PlayingCard.cs:123`), because `Suit` has exactly four constructors, so an out-of-range cast to the suit enum cannot be represented.
- `Decks.DealHands`: does not model 32-bit overflow of `handSize * numPlayers` in the size check; integers are unbounded.
- The enumeration order of .NET `Dictionary` is taken to be insertion order after `Clear`, as stated above. .NET does not document that order.
- `CardCollection.Count` and `CheckEmpty` have no members of their own.
  - `Count` is the length of `cards`.
  - The `CheckEmpty` failure is part of `Draw` and `Random`.
- Every checker and `HandRankChecker.FindBestHand` require a hand size of at least five; the source accepts any `int` (`Assets/Demos/Scripts/HandCheckers/PokerHandRankChecker.cs:28`).
  - Below five the source mostly throws in the size check of `PokerHand` (`Assets/Demos/Scripts/PokerHand.cs:33-35`).
  - The exception is two triples with hand size 4: `GetRange(0, 5)` (`Assets/Demos/Scripts/HandCheckers/SetCheckers.cs:66-67`) still builds a five-card full house. That case is not modelled.
  - No caller in the repository passes a hand size below five.
- `EnoughCards` has no member of its own. It is the comparison `|cards| >= handSize` that every checker uses.

## Findings

| source | as written | input that shows it | evidently intended | confidence | as-written member | corrected member |
|---|---|---|---|---|---|---|
| Assets/Scripts/Deck.cs:25 | `new List<Hand<T>>(numPlayers)` only reserves capacity, so `result[hand]` at line 28 indexes an empty list | `DealHands(5, 2)` on a 52-card deck | numPlayers empty hands, each receiving handSize cards round-robin | high; not executed | Decks.DealAsWrittenFails | Decks.DealHands |
| Assets/Demos/Scripts/HandCheckers/StraightFlushChecker.cs:9 | the suit dictionary is declared but never created, so line 19 dereferences null once the pool has handSize cards | the pool 5H 6H 7H 8H 9H with hand size 5 | four fresh suit groups in `Suits` order, as the flush checker builds them | high; not executed | StraightFlushChecker.StraightFlushAsWrittenFails | StraightFlushChecker.StraightFlushFinds |
| Assets/Demos/Scripts/HandCheckers/PokerHandRankChecker.cs:30 | the walk reaches HighCard, which has no table entry, so the lookup throws before the fallback at line 35 | the pool 2S 3D 4C 5H 7S with hand size 5, once the straight-flush defect is corrected | consult the nine entries, then build the high-card hand | high; not executed | HandRankChecker.MissingHighCardEntryFails | HandRankChecker.HighCardFallback |

=== FILE: ace_low_card.dfy ===
/**
 * The playing card of the first demo: an immutable (suit, value) pair with
 * integer values 1..13, where Ace = 1 is the lowest card. Ordering looks at the
 * value only; equality looks at suit and value.
 */
module AceLowCard {
  import opened Wrappers
  import opened CardSuits

  const MinValue: int := 1
  const MaxValue: int := 13
  const Ace: int := 1
  const Jack: int := 11
  const Queen: int := 12
  const King: int := 13

  datatype Card = Card(suit: Suit, value: int)

  predicate ValidValue(v: int) {
    MinValue <= v <= MaxValue
  }

  /** The other operand of `CompareTo` and `Equals`: null, a playing card, or any other card or object. */
  datatype CardRef = NullRef | PlayingRef(card: Card) | ForeignRef

  /** Orders by value only, so an Ace sorts below every other value; null sorts below every card. */
  function CompareTo(c: Card, other: CardRef): (r: Result<int>)
    ensures other.NullRef? ==> r == Success(1)
    ensures other.ForeignRef? ==> r == Failure(TypeMismatch)
    ensures other.PlayingRef? ==>
      && r.Success? && -1 <= r.value <= 1
      && (r.value < 0 <==> c.value < other.card.value)
      && (r.value == 0 <==> c.value == other.card.value)
  {
    match other
    case NullRef => Success(1)
    case ForeignRef => Failure(TypeMismatch)
    case PlayingRef(d) =>
      Success(if c.value < d.value then -1 else if c.value == d.value then 0 else 1)
  }

  /** Holds exactly when the other operand is a playing card of the same suit and value. */
  function Equals(c: Card, other: CardRef): (b: bool)
    ensures b <==> other == PlayingRef(c)
  {
    other.PlayingRef? && other.card.value == c.value && other.card.suit == c.suit
  }

  function HashCode(c: Card): int {
    SuitIndex(c.suit) * 7 + c.value
  }

  /** An Ace compares below every other valid card and equals none of them. */
  lemma AceIsLowest(a: Card, b: Card)
    requires a.value == Ace && ValidValue(b.value) && b.value != Ace
    ensures CompareTo(a, PlayingRef(b)).Success? && CompareTo(a, PlayingRef(b)).value < 0
    ensures CompareTo(b, PlayingRef(a)).Success? && CompareTo(b, PlayingRef(a)).value > 0
    ensures !Equals(a, PlayingRef(b))
  {
  }

  /** `Equals` is an equivalence on playing cards, and equal cards hash equally. */
  lemma EqualsConsistent(a: Card, b: Card, c: Card)
    ensures Equals(a, PlayingRef(a))
    ensures Equals(a, PlayingRef(b)) <==> Equals(b, PlayingRef(a))
    ensures Equals(a, PlayingRef(b)) && Equals(b, PlayingRef(c)) ==> Equals(a, PlayingRef(c))
    ensures Equals(a, PlayingRef(b)) ==> HashCode(a) == HashCode(b)
    ensures !Equals(a, NullRef) && !Equals(a, ForeignRef)
  {
  }

  /** Value code: A for 1, J, Q, K for 11..13, the numeral otherwise; no code outside 1..13. */
  function ValueString(v: int): (r: Result<string>)
    ensures r.Failure? <==> !ValidValue(v)
    ensures r.Failure? ==> r.error == NoStringCode
    ensures r.Success? ==> ValueOfCode(r.value) == Some(v)
    ensures r.Success? ==> (IsNumeral(r.value) <==> 2 <= v <= 10)
    ensures r.Success? ==> |r.value| == (if v == 10 then 2 else 1)
  {
    if v < MinValue || v > MaxValue then Failure(NoStringCode)
    else if v == Ace then LetterStart("A"); Success("A")
    else if v == Jack then LetterStart("J"); Success("J")
    else if v == Queen then LetterStart("Q"); Success("Q")
    else if v == King then LetterStart("K"); Success("K")
    else DecimalRoundTrip(v); Success(Decimal(v))
  }

  function ValueOfCode(s: string): Option<int> {
    if s == "A" then Some(Ace)
    else if s == "J" then Some(Jack)
    else if s == "Q" then Some(Queen)
    else if s == "K" then Some(King)
    else if IsNumeral(s) then Some(ParseDecimal(s))
    else None
  }

  /** Long value word: Ace, Jack, Queen, King, or the numeral; none outside 1..13. */
  function LongValueString(v: int): (r: Result<string>)
    ensures r.Failure? <==> !ValidValue(v)
    ensures r.Failure? ==> r.error == NoStringCode
    ensures r.Success? ==> ValueOfWord(r.value) == Some(v)
    ensures r.Success? ==> (IsNumeral(r.value) <==> 2 <= v <= 10)
    ensures r.Success? && IsNumeral(r.value) ==> |r.value| == (if v == 10 then 2 else 1)
  {
    if v < MinValue || v > MaxValue then Failure(NoStringCode)
    else if v == Ace then LetterStart("Ace"); Success("Ace")
    else if v == Jack then LetterStart("Jack"); Success("Jack")
    else if v == Queen then LetterStart("Queen"); Success("Queen")
    else if v == King then LetterStart("King"); Success("King")
    else DecimalRoundTrip(v); Success(Decimal(v))
  }

  function ValueOfWord(s: string): Option<int> {
    if s == "Ace" then Some(Ace)
    else if s == "Jack" then Some(Jack)
    else if s == "Queen" then Some(Queen)
    else if s == "King" then Some(King)
    else if IsNumeral(s) then Some(ParseDecimal(s))
    else None
  }

  /** Short form: value code followed by suit code, as in "AS", "10H", "QC". */
  function ToString(c: Card): (r: Result<string>)
    ensures r.Failure? <==> !ValidValue(c.value)
    ensures r.Success? ==> CardOfString(r.value) == Some(c)
    ensures r.Success? ==> |r.value| == (if c.value == 10 then 3 else 2)
    ensures r.Success? ==> (IsNumeral(r.value[..|r.value| - 1]) <==> 2 <= c.value <= 10)
  {
    match ValueString(c.value)
    case Failure(e) => Failure(e)
    case Success(code) =>
      var s := code + SuitString(c.suit);
      SuitCodeRoundTrip(c.suit);
      assert s[..|s| - 1] == code;
      Success(s)
  }

  function CardOfString(s: string): Option<Card> {
    if |s| < 2 then None
    else match (ValueOfCode(s[..|s| - 1]), SuitOfCode(s[|s| - 1]))
      case (Some(v), Some(t)) => Some(Card(t, v))
      case _ => None
  }

  /** Distinct cards render to distinct short forms. */
  lemma ShortFormsDistinct(a: Card, b: Card)
    requires ToString(a).Success? && ToString(b).Success?
    requires ToString(a) == ToString(b)
    ensures a == b
  {
    assert CardOfString(ToString(a).value) == Some(a);
  }
}

=== FILE: ace_low_card_deck.dfy ===
/** The 52-card deck of the first demo (Ace low, values 1..13), built card by card. */
module AceLowCardDeck {
  import opened CardSuits
  import opened AceLowCard
  import opened CardCollections
  import opened Seqs

  /** The unshuffled deck: values 1..13 outer, suits inner (Spade, Diamond, Club, Heart). */
  function OrderedDeck(): (d: seq<Card>)
    ensures |d| == 52
  {
    seq(52, i requires 0 <= i < 52 => Card(Suits[i % 4], 1 + i / 4))
  }

  /** Position `i` holds suit `i % 4` of the `i / 4`-th value. */
  lemma OrderedDeckAt(i: nat)
    requires i < 52
    ensures OrderedDeck()[i] == Card(Suits[i % 4], MinValue + i / 4)
  {
  }

  /** Every (suit, value) pair with a value in 1..13 occurs exactly once in the ordered deck, and nothing else. */
  lemma OrderedDeckComplete(c: Card)
    ensures multiset(OrderedDeck())[c] == if ValidValue(c.value) then 1 else 0
  {
    var d := OrderedDeck();
    forall i, j | 0 <= i < j < |d| ensures d[i] != d[j] {
      OrderedDeckAt(i);
      OrderedDeckAt(j);
      if i / 4 == j / 4 {
        assert i % 4 != j % 4;
        SuitsEnumerateEachOnce();
      }
    }
    NoDuplicatesMultiplicity(d, c);
    if ValidValue(c.value) {
      var i := 4 * (c.value - MinValue) + SuitIndex(c.suit);
      assert i / 4 == c.value - MinValue && i % 4 == SuitIndex(c.suit);
      OrderedDeckAt(i);
      assert d[i] == c;
    } else {
      assert c !in d;
    }
  }

  /** The card added at step `k` extends the prefix of the ordered deck by one. */
  lemma OrderedDeckStep(k: nat, card: Card)
    requires k < 52 && card == Card(Suits[k % 4], MinValue + k / 4)
    ensures OrderedDeck()[..k + 1] == OrderedDeck()[..k] + [card]
    ensures multiset(OrderedDeck()[..k + 1]) == multiset(OrderedDeck()[..k]) + multiset{card}
  {
    var d := OrderedDeck();
    OrderedDeckAt(k);
    PrefixStep(d, k);
  }

  /** Position `k = 4 * row + col` of the ordered deck is column `col` of row `row`. */
  lemma Position(k: nat, row: nat, col: nat)
    requires col < 4 && k == 4 * row + col
    ensures k % 4 == col && k / 4 == row
  {
  }

  /**
   * The inner loop of the builder: adds the four cards of one value, one per suit,
   * keeping the deck (up to rearrangement when shuffled) a prefix of the ordered deck.
   */
  method AddRow(deck: CardCollection<Card>, shuffled: bool, randIndices: seq<int>, row: nat, value: int)
    requires row < 13 && value == MinValue + row
    requires shuffled ==> |randIndices| == 52 && forall j :: 0 <= j < 52 ==> RandomRange(randIndices[j], j)
    requires |deck.cards| == 4 * row
    requires !shuffled ==> deck.cards == OrderedDeck()[..4 * row]
    requires multiset(deck.cards) == multiset(OrderedDeck()[..4 * row])
    modifies deck
    ensures |deck.cards| == 4 * row + 4
    ensures !shuffled ==> deck.cards == OrderedDeck()[..4 * row + 4]
    ensures multiset(deck.cards) == multiset(OrderedDeck()[..4 * row + 4])
  {
    for si := 0 to |Suits|
      invariant |deck.cards| == 4 * row + si
      invariant !shuffled ==> deck.cards == OrderedDeck()[..4 * row + si]
      invariant multiset(deck.cards) == multiset(OrderedDeck()[..4 * row + si])
    {
      var k := 4 * row + si;
      Position(k, row, si);
      OrderedDeckStep(k, Card(Suits[si], value));
      deck.AddCard(Card(Suits[si], value), shuffled, if shuffled then randIndices[k] else 0);
    }
  }

  /**
   * Builds the deck for values MinValue..MaxValue and each suit, appending, or inserting
   * each card at the random index `randIndices[k]` (k = cards already added) when
   * `shuffled` is set.
   */
  method NewDeck(shuffled: bool, randIndices: seq<int>) returns (deck: CardCollection<Card>)
    requires shuffled ==> |randIndices| == 52 && forall k :: 0 <= k < 52 ==> RandomRange(randIndices[k], k)
    ensures fresh(deck)
    ensures !shuffled ==> deck.cards == OrderedDeck()
    ensures multiset(deck.cards) == multiset(OrderedDeck())
  {
    deck := new CardCollection<Card>();
    ghost var d := OrderedDeck();
    var i := MinValue;
    while i <= MaxValue
      invariant MinValue <= i <= MaxValue + 1
      invariant |deck.cards| == 4 * (i - MinValue)
      invariant !shuffled ==> deck.cards == d[..4 * (i - MinValue)]
      invariant multiset(deck.cards) == multiset(d[..4 * (i - MinValue)])
    {
      AddRow(deck, shuffled, randIndices, i - MinValue, i);
      i := i + 1;
    }
    assert d[..52] == d;
  }
}

=== FILE: card_collection.dfy ===
/**
 * An ordered, mutable collection of cards (a deck or a player's hand), changed in
 * place by drawing, shuffling and adding. Duplicates are not prevented.
 * Dafny's `==` on the element type stands for the cards' `Equals`.
 */
module CardCollections {
  import opened Wrappers
  import opened Seqs

  /**
   * The indices the random source can produce for a collection of `count` cards:
   * one in [0, count), or 0 when the collection is empty.
   */
  predicate RandomRange(i: int, count: nat) {
    if count == 0 then i == 0 else 0 <= i < count
  }

  /** The position `Draw` reads: a position outside [0, count) selects the last card. */
  function ClampPosition(pos: int, count: nat): (p: nat)
    requires count > 0
    ensures p < count
    ensures 0 <= pos < count ==> p == pos
    ensures !(0 <= pos < count) ==> p == count - 1
  {
    if pos < 0 || pos >= count then count - 1 else pos
  }

  /** Removes the first element equal to `x`, as a list's `Remove` does. */
  function RemoveFirst<T(==)>(s: seq<T>, x: T): (r: seq<T>)
    ensures x in s ==> |r| == |s| - 1
    ensures x !in s ==> r == s
  {
    if s == [] then []
    else if s[0] == x then
      assert s == [s[0]] + s[1..];
      s[1..]
    else
      assert s == [s[0]] + s[1..];
      [s[0]] + RemoveFirst(s[1..], x)
  }

  /** Removing a card that is present takes exactly one copy of it away. */
  lemma {:induction false} RemoveFirstCount<T>(s: seq<T>, x: T)
    requires x in s
    ensures multiset(RemoveFirst(s, x)) == multiset(s) - multiset{x}
  {
    HeadSplit(s);
    if s[0] != x {
      RemoveFirstCount(s[1..], x);
    }
  }

  /** When position `p` holds the first occurrence of its card, removing that card deletes exactly position `p`. */
  lemma {:induction false} RemoveFirstAt<T>(s: seq<T>, p: nat)
    requires p < |s|
    requires forall j :: 0 <= j < p ==> s[j] != s[p]
    ensures RemoveFirst(s, s[p]) == s[..p] + s[p + 1..]
  {
    if p > 0 {
      var t := s[1..];
      var x := s[p];
      assert t[p - 1] == x;
      forall j | 0 <= j < p - 1 ensures t[j] != t[p - 1] {
        assert t[j] == s[j + 1];
      }
      RemoveFirstAt(t, p - 1);
      assert s[0] != x;
      assert RemoveFirst(s, x) == [s[0]] + RemoveFirst(t, x);
      DeleteAfterHead(s, p);
    }
  }

  /** In a collection without duplicates, the drawn card is gone and the others keep their order. */
  lemma DrawFromDistinct<T>(s: seq<T>, p: nat)
    requires p < |s| && NoDuplicates(s)
    ensures RemoveFirst(s, s[p]) == s[..p] + s[p + 1..]
    ensures s[p] !in RemoveFirst(s, s[p])
  {
    RemoveFirstAt(s, p);
    var r := s[..p] + s[p + 1..];
    forall k | 0 <= k < |r| ensures r[k] != s[p] {
      if k < p { assert r[k] == s[k]; } else { assert r[k] == s[k + 1]; }
    }
  }

  /** Exchanges positions `i` and `j`. */
  function Swap<T>(s: seq<T>, i: nat, j: nat): (r: seq<T>)
    requires i < |s| && j < |s|
    ensures |r| == |s|
    ensures r[i] == s[j] && r[j] == s[i]
    ensures forall k :: 0 <= k < |s| && k != i && k != j ==> r[k] == s[k]
  {
    s[i := s[j]][j := s[i]]
  }

  /** A swap rearranges the cards and keeps every one of them. */
  lemma SwapPermutes<T>(s: seq<T>, i: nat, j: nat)
    requires i < |s| && j < |s|
    ensures multiset(Swap(s, i, j)) == multiset(s)
  {
  }

  /** The number of swaps `Shuffle` performs on `count` cards: one per position but the last. */
  function ShuffleSteps(count: nat): nat {
    if count <= 1 then 0 else count - 1
  }

  /**
   * The step shuffle: for i = 0, 1, ..., swap position i with the i-th random index.
   * It rearranges the cards and never changes which cards there are.
   */
  function StepShuffle<T>(s: seq<T>, indices: seq<int>): (r: seq<T>)
    requires |indices| <= |s|
    requires forall k :: 0 <= k < |indices| ==> 0 <= indices[k] < |s|
    ensures |r| == |s|
    decreases |indices|
  {
    if indices == [] then s
    else
      var k := |indices| - 1;
      Swap(StepShuffle(s, indices[..k]), k, indices[k])
  }

  /** The step shuffle is a permutation: every card keeps its number of copies. */
  lemma {:induction false} StepShufflePermutes<T>(s: seq<T>, indices: seq<int>)
    requires |indices| <= |s|
    requires forall k :: 0 <= k < |indices| ==> 0 <= indices[k] < |s|
    ensures multiset(StepShuffle(s, indices)) == multiset(s)
    decreases |indices|
  {
    if indices != [] {
      var k := |indices| - 1;
      StepShufflePermutes(s, indices[..k]);
      SwapPermutes(StepShuffle(s, indices[..k]), k, indices[k]);
    }
  }

  /** One more index swaps its position with the position it names. */
  lemma StepShuffleStep<T>(s: seq<T>, indices: seq<int>, i: nat)
    requires i < |indices| <= |s|
    requires forall k :: 0 <= k < |indices| ==> 0 <= indices[k] < |s|
    ensures StepShuffle(s, indices[..i + 1]) == Swap(StepShuffle(s, indices[..i]), i, indices[i])
  {
    PrefixOfPrefix(indices, i, i + 1);
  }

  class CardCollection<T(==)> {
    var cards: seq<T>

    /** An empty collection. */
    constructor ()
      ensures cards == []
    {
      cards := [];
    }

    /** A collection holding a copy of `source`, in order. */
    constructor FromCards(source: seq<T>)
      ensures cards == source
    {
      cards := source;
    }

    function Count(): nat
      reads this
    {
      |cards|
    }

    /**
     * Removes and returns the card at `pos`, or the last card when `pos` is out of
     * range. An empty collection fails and is left as it was.
     */
    method Draw(pos: int) returns (r: Result<T>)
      modifies this
      ensures old(cards) == [] ==> r == Failure(EmptyCollection) && cards == old(cards)
      ensures old(cards) != [] ==>
        && r.Success?
        && r.value == old(cards)[ClampPosition(pos, |old(cards)|)]
        && cards == RemoveFirst(old(cards), r.value)
        && |cards| == |old(cards)| - 1
        && multiset(cards) == multiset(old(cards)) - multiset{r.value}
    {
      if |cards| == 0 {
        return Failure(EmptyCollection);
      }
      var p := pos;
      if p < 0 || p >= |cards| {
        p := |cards| - 1;
      }
      var card := cards[p];
      RemoveFirstCount(cards, card);
      cards := RemoveFirst(cards, card);
      return Success(card);
    }

    /** Draws the card at the random index `randIndex`. */
    method Random(randIndex: int) returns (r: Result<T>)
      requires RandomRange(randIndex, |cards|)
      modifies this
      ensures old(cards) == [] ==> r == Failure(EmptyCollection) && cards == old(cards)
      ensures old(cards) != [] ==>
        && r == Success(old(cards)[randIndex])
        && cards == RemoveFirst(old(cards), r.value)
        && |cards| == |old(cards)| - 1
    {
      r := Draw(randIndex);
    }

    /** Swaps every position but the last with a random index, in order; `indices` supplies them. */
    method Shuffle(indices: seq<int>)
      requires |indices| == ShuffleSteps(|cards|)
      requires forall k :: 0 <= k < |indices| ==> 0 <= indices[k] < |cards|
      modifies this
      ensures cards == StepShuffle(old(cards), indices)
      ensures |cards| == |old(cards)| && multiset(cards) == multiset(old(cards))
      ensures |old(cards)| <= 1 ==> cards == old(cards)
    {
      var i := 0;
      while i < |cards| - 1
        invariant i <= |indices| && |cards| == |old(cards)|
        invariant cards == StepShuffle(old(cards), indices[..i])
      {
        var index := indices[i];
        StepShuffleStep(old(cards), indices, i);
        var thisCard := cards[i];
        cards := cards[i := cards[index]];
        cards := cards[index := thisCard];
        i := i + 1;
      }
      assert indices[..i] == indices;
      StepShufflePermutes(old(cards), indices);
    }

    /** Appends `card`, or inserts it at the random index `randIndex` when `random` is set. */
    method AddCard(card: T, random: bool, randIndex: int)
      requires random ==> RandomRange(randIndex, |cards|)
      modifies this
      ensures !random ==> cards == old(cards) + [card]
      ensures random ==> cards == old(cards)[..randIndex] + [card] + old(cards)[randIndex..]
      ensures |cards| == |old(cards)| + 1 && multiset(cards) == multiset(old(cards)) + multiset{card}
    {
      if !random {
        cards := cards + [card];
        return;
      }
      assert cards == cards[..randIndex] + cards[randIndex..];
      cards := cards[..randIndex] + [card] + cards[randIndex..];
    }
  }
}

=== FILE: card_ranks.dfy ===
/**
 * The helpers every hand checker shares: the size test and the grouping of a card
 * pool by value. The groups are kept in the order their value first appears in the
 * pool, which is the order the dictionary enumerates them in.
 */
module CardRanks {
  import opened PlayingCard
  import opened Seqs

  /** A pool can make a hand of `handSize` cards exactly when it holds at least that many. */
  predicate EnoughCards(cards: seq<Card>, handSize: int) {
    |cards| >= handSize
  }

  /** The cards of value `v`, in pool order. */
  function WithValue(s: seq<Card>, v: int): (g: seq<Card>)
    ensures |g| <= |s|
    decreases |s|
  {
    if s == [] then []
    else WithValue(s[..|s| - 1], v) + (if s[|s| - 1].value == v then [s[|s| - 1]] else [])
  }

  /** A card is in the group of `v` exactly when it is in the pool and has value `v`. */
  lemma {:induction false} WithValueMembers(s: seq<Card>, v: int)
    ensures forall c :: c in WithValue(s, v) <==> c in s && c.value == v
    decreases |s|
  {
    if s != [] {
      WithValueMembers(s[..|s| - 1], v);
      assert s == s[..|s| - 1] + [s[|s| - 1]];
    }
  }

  /** A value no card of the pool has gets an empty group. */
  lemma {:induction false} WithValueAbsent(s: seq<Card>, v: int)
    requires forall c :: c in s ==> c.value != v
    ensures WithValue(s, v) == []
    decreases |s|
  {
    if s != [] {
      WithValueAbsent(s[..|s| - 1], v);
      assert s[|s| - 1] in s;
    }
  }

  /** The distinct values of the pool, in order of first appearance: the keys of the rank dictionary. */
  function RankOrder(s: seq<Card>): (vs: seq<int>)
    ensures NoDuplicates(vs)
    decreases |s|
  {
    if s == [] then []
    else
      var vs := RankOrder(s[..|s| - 1]);
      var v := s[|s| - 1].value;
      if v in vs then vs else vs + [v]
  }

  /** The keys are exactly the values that have a non-empty group. */
  lemma {:induction false} RankOrderMembers(s: seq<Card>, v: int)
    ensures v in RankOrder(s) <==> WithValue(s, v) != []
    decreases |s|
  {
    if s != [] {
      RankOrderMembers(s[..|s| - 1], v);
    }
  }

  /**
   * Fills the rank dictionary: one group per value present, holding that value's
   * cards in pool order; `order` is the dictionary's enumeration order.
   */
  method GetCardRanks(cards: seq<Card>) returns (order: seq<int>, groups: map<int, seq<Card>>)
    ensures order == RankOrder(cards)
    ensures forall v :: v in order ==> v in groups
    ensures forall v :: v in groups ==> v in order
    ensures forall v :: v in groups ==> groups[v] == WithValue(cards, v)
  {
    order := [];
    groups := map[];
    for i := 0 to |cards|
      invariant order == RankOrder(cards[..i])
      invariant forall v :: v in order ==> v in groups
      invariant forall v :: v in groups ==> v in order
      invariant forall v :: v in groups ==> groups[v] == WithValue(cards[..i], v)
    {
      var c := cards[i];
      assert cards[..i + 1][..i] == cards[..i];
      RankOrderMembers(cards[..i], c.value);
      if c.value in groups {
        groups := groups[c.value := groups[c.value] + [c]];
      } else {
        groups := groups[c.value := [c]];
        order := order + [c.value];
      }
    }
    assert cards[..|cards|] == cards;
  }

  /** Each group keeps pool order. */
  lemma {:induction false} GroupInPoolOrder(s: seq<Card>, v: int)
    ensures Subsequence(WithValue(s, v), s)
    decreases |s|
  {
    if s == [] {
      SubsequenceReflexive(s);
    } else {
      var s' := s[..|s| - 1];
      var c := s[|s| - 1];
      GroupInPoolOrder(s', v);
      assert s == s' + [c];
      SubsequenceExtend(WithValue(s', v), s', c);
      if c.value == v {
        assert WithValue(s, v) == WithValue(s', v) + [c];
      } else {
        assert WithValue(s, v) == WithValue(s', v);
      }
    }
  }

  /** Each group holds every copy of the cards of its value and nothing else. */
  lemma {:induction false} GroupCounts(s: seq<Card>, v: int, c: Card)
    ensures multiset(WithValue(s, v))[c] == if c.value == v then multiset(s)[c] else 0
    decreases |s|
  {
    if s != [] {
      var s' := s[..|s| - 1];
      GroupCounts(s', v, c);
      assert s == s' + [s[|s| - 1]];
    }
  }

  /** Every card lands in the group of its own value and in no other. */
  lemma CardInOneGroup(s: seq<Card>, c: Card, v: int)
    requires c in s
    ensures c.value in RankOrder(s)
    ensures c in WithValue(s, v) <==> v == c.value
  {
    WithValueMembers(s, v);
    WithValueMembers(s, c.value);
    RankOrderMembers(s, c.value);
  }

  /** The sum of the sizes of the groups of `keys`. */
  function GroupSizes(s: seq<Card>, keys: seq<int>): nat
    decreases |keys|
  {
    if keys == [] then 0 else GroupSizes(s, keys[..|keys| - 1]) + |WithValue(s, keys[|keys| - 1])|
  }

  /** Adding one card grows exactly the group of its value, by one. */
  lemma {:induction false} GroupSizesStep(s: seq<Card>, c: Card, keys: seq<int>)
    requires NoDuplicates(keys)
    ensures GroupSizes(s + [c], keys) == GroupSizes(s, keys) + (if c.value in keys then 1 else 0)
    decreases |keys|
  {
    if keys != [] {
      var ks := keys[..|keys| - 1];
      var k := keys[|keys| - 1];
      assert NoDuplicates(ks);
      GroupSizesStep(s, c, ks);
      assert (s + [c])[..|s + [c]| - 1] == s;
      assert keys == ks + [k];
      assert c.value in keys <==> c.value in ks || c.value == k;
      assert c.value == k ==> c.value !in ks;
    }
  }

  /** One more card: its group grows by it, and its value joins the key order if new. */
  lemma AppendCard(s: seq<Card>, c: Card, v: int)
    ensures WithValue(s + [c], v) == WithValue(s, v) + (if c.value == v then [c] else [])
    ensures RankOrder(s + [c]) == if c.value in RankOrder(s) then RankOrder(s) else RankOrder(s) + [c.value]
  {
    assert (s + [c])[..|s|] == s;
  }

  /** Appending one card to a pool whose group sizes add up keeps them adding up. */
  lemma GroupsPartitionStep(s: seq<Card>)
    requires s != [] && GroupSizes(s[..|s| - 1], RankOrder(s[..|s| - 1])) == |s| - 1
    ensures GroupSizes(s, RankOrder(s)) == |s|
  {
    var s', c := s[..|s| - 1], s[|s| - 1];
    LastSplit(s);
    var vs := RankOrder(s');
    AppendCard(s', c, c.value);
    GroupSizesStep(s', c, vs);
    if c.value !in vs {
      RankOrderMembers(s', c.value);
      var ws := vs + [c.value];
      assert ws[..|ws| - 1] == vs;
      assert GroupSizes(s, ws) == GroupSizes(s, vs) + |WithValue(s, c.value)|;
    }
  }

  /** The group sizes add up to the pool's length. */
  lemma {:induction false} GroupsPartition(s: seq<Card>)
    ensures GroupSizes(s, RankOrder(s)) == |s|
    decreases |s|
  {
    if s != [] {
      GroupsPartition(s[..|s| - 1]);
      GroupsPartitionStep(s);
    }
  }

  /** There is one group per distinct value of the pool. */
  lemma GroupCount(s: seq<Card>)
    ensures |RankOrder(s)| == |set c | c in s :: c.value|
  {
    NoDuplicatesCardinality(RankOrder(s));
    forall d | d in s ensures d.value in RankOrder(s) {
      CardInOneGroup(s, d, d.value);
    }
    assert (set x | x in RankOrder(s)) == (set d | d in s :: d.value) by {
      forall x | x in RankOrder(s) ensures x in (set d | d in s :: d.value) {
        RankOrderMembers(s, x);
        WithValueMembers(s, x);
        var w := WithValue(s, x);
        assert w[0] in w;
      }
    }
  }
}

=== FILE: card_suits.dfy ===
/**
 * The four suits shared by both playing-card variants, their one-letter codes,
 * and the decimal numerals (`int.ToString()`) used to render card values.
 */
module CardSuits {
  import opened Wrappers
  import opened Seqs

  datatype Suit = Spade | Diamond | Club | Heart

  /** The suits in declaration order, as `PlayingCard.Suits` enumerates them. */
  const Suits: seq<Suit> := [Spade, Diamond, Club, Heart]

  /** The suit's position in the declaration: its enum value, and so its hash code. */
  function SuitIndex(s: Suit): (i: nat)
    ensures i < |Suits| && Suits[i] == s
  {
    match s
    case Spade => 0
    case Diamond => 1
    case Club => 2
    case Heart => 3
  }

  /** One-letter suit code: S, D, C or H. */
  function SuitString(s: Suit): (r: string)
    ensures |r| == 1 && r[0] in "SDCH"
  {
    match s
    case Spade => "S"
    case Diamond => "D"
    case Club => "C"
    case Heart => "H"
  }

  /** The suit a one-letter code names, if any. */
  function SuitOfCode(c: char): (r: Option<Suit>)
  {
    if c == 'S' then Some(Spade)
    else if c == 'D' then Some(Diamond)
    else if c == 'C' then Some(Club)
    else if c == 'H' then Some(Heart)
    else None
  }

  /** Every suit appears exactly once in `Suits`. */
  lemma SuitsEnumerateEachOnce()
    ensures |Suits| == 4
    ensures forall i, j :: 0 <= i < j < |Suits| ==> Suits[i] != Suits[j]
    ensures forall s :: s in Suits
  {
    forall s ensures s in Suits {
      assert Suits[SuitIndex(s)] == s;
    }
  }

  /** Reading back a suit code gives the suit, so distinct suits have distinct codes. */
  lemma SuitCodeRoundTrip(s: Suit)
    ensures SuitOfCode(SuitString(s)[0]) == Some(s)
    ensures forall t :: SuitString(t) == SuitString(s) ==> t == s
  {
  }

  function DigitChar(d: nat): (c: char)
    requires d < 10
  {
    "0123456789"[d]
  }

  function DigitValue(c: char): nat
  {
    if '0' <= c <= '9' then (c as int - '0' as int) else 0
  }

  /** A digit reads back as the number it writes. */
  lemma DigitRoundTrip(d: nat)
    requires d < 10
    ensures DigitValue(DigitChar(d)) == d
  {
  }

  /** A non-empty string of decimal digits. */
  predicate IsNumeral(s: string) {
    s != [] && forall i :: 0 <= i < |s| ==> '0' <= s[i] <= '9'
  }

  /** A string that starts with a letter is not a numeral. */
  lemma LetterStart(s: string)
    requires s != [] && !('0' <= s[0] <= '9')
    ensures !IsNumeral(s)
  {
  }

  /** Decimal numeral of `n`, most significant digit first, without leading zeros. */
  function Decimal(n: nat): (r: string)
    ensures 1 <= |r|
    ensures |r| == 1 <==> n < 10
    ensures 10 <= n < 100 ==> |r| == 2
    ensures forall i :: 0 <= i < |r| ==> '0' <= r[i] <= '9'
  {
    if n < 10 then [DigitChar(n)] else Decimal(n / 10) + [DigitChar(n % 10)]
  }

  /** Reads a numeral of decimal digits. */
  function ParseDecimal(s: string): nat
  {
    if s == [] then 0 else 10 * ParseDecimal(s[..|s| - 1]) + DigitValue(s[|s| - 1])
  }

  /** Numerals read back to the number they render. */
  lemma {:induction false} DecimalRoundTrip(n: nat)
    ensures ParseDecimal(Decimal(n)) == n
  {
    if n >= 10 {
      var q, d := n / 10, n % 10;
      DecimalRoundTrip(q);
      var front := Decimal(q);
      assert Decimal(n) == front + [DigitChar(d)];
      AppendLast(front, DigitChar(d));
      DigitRoundTrip(d);
    }
  }
}

=== FILE: deck.dfy ===
/**
 * Dealing from a deck. A deck is a card collection; dealing draws the front card
 * repeatedly and hands it out round-robin.
 */
module Decks {
  import opened Wrappers
  import opened CardCollections

  /** The number of cards `rounds` rounds of `seats` cards use: their product, counted round by round. */
  function Mul(rounds: nat, seats: nat): nat
    decreases rounds
  {
    if rounds == 0 then 0 else Mul(rounds - 1, seats) + seats
  }

  /** Counting round by round gives the product. */
  lemma {:induction false} MulIsProduct(rounds: nat, seats: nat)
    ensures Mul(rounds, seats) == rounds * seats
    decreases rounds
  {
    if rounds > 0 {
      MulIsProduct(rounds - 1, seats);
      assert rounds * seats == (rounds - 1) * seats + seats;
    }
  }

  /** More rounds use at least as many cards. */
  lemma {:induction false} MulMonotone(a: nat, b: nat, seats: nat)
    requires a <= b
    ensures Mul(a, seats) <= Mul(b, seats)
    decreases b - a
  {
    if a < b {
      MulMonotone(a + 1, b, seats);
    }
  }

  /** The cards seat `h` holds after `rounds` rounds of dealing `s` to `seats` hands. */
  function DealtHand<T>(s: seq<T>, seats: nat, rounds: nat, h: nat): (r: seq<T>)
    requires h < seats && Mul(rounds, seats) <= |s|
    ensures |r| == rounds
    decreases rounds
  {
    if rounds == 0 then []
    else DealtHand(s, seats, rounds - 1, h) + [s[Mul(rounds - 1, seats) + h]]
  }

  /** Seat `h` holds positions h, h + seats, h + 2 * seats, ... of `s`, in that order. */
  lemma {:induction false} DealtHandPositions<T>(s: seq<T>, seats: nat, rounds: nat, h: nat)
    requires h < seats && Mul(rounds, seats) <= |s|
    ensures forall j :: 0 <= j < rounds ==> j * seats + h < |s| && DealtHand(s, seats, rounds, h)[j] == s[j * seats + h]
    decreases rounds
  {
    if rounds > 0 {
      var k := rounds - 1;
      DealtHandPositions(s, seats, k, h);
      MulIsProduct(k, seats);
      forall j | 0 <= j < k ensures j * seats + h < |s| && DealtHand(s, seats, rounds, h)[j] == s[j * seats + h] {
        assert DealtHand(s, seats, rounds, h)[j] == DealtHand(s, seats, k, h)[j];
      }
    }
  }

  /** One more round gives each seat the card at its position in that round. */
  lemma DealtHandStep<T>(s: seq<T>, seats: nat, k: nat, next: nat, h: nat)
    requires next == k + 1 && h < seats && Mul(next, seats) <= |s|
    ensures Mul(next, seats) == Mul(k, seats) + seats
    ensures DealtHand(s, seats, next, h) == DealtHand(s, seats, k, h) + [s[Mul(k, seats) + h]]
  {
  }

  /** All hands after `rounds` rounds, seat by seat. */
  function DealtHands<T>(s: seq<T>, seats: nat, rounds: nat): (hs: seq<seq<T>>)
    requires Mul(rounds, seats) <= |s|
  {
    seq(seats, h requires 0 <= h < seats => DealtHand(s, seats, rounds, h))
  }

  /** The cards of several hands, taken together. */
  function AllCards<T>(hs: seq<seq<T>>): multiset<T> {
    if hs == [] then multiset{} else AllCards(hs[..|hs| - 1]) + multiset(hs[|hs| - 1])
  }

  /**
   * Deals `numPlayers` hands of `handSize` cards round-robin from the front of the deck.
   * Asking for more cards than the deck holds fails and leaves the deck as it was;
   * a negative number of players is rejected as a list capacity. The hands are
   * allocated empty before the deal.
   */
  method DealHands<T(==)>(deck: CardCollection<T>, handSize: int, numPlayers: int)
    returns (r: Result<seq<CardCollection<T>>>)
    modifies deck
    ensures handSize * numPlayers > |old(deck.cards)| ==>
      r == Failure(InsufficientCards) && deck.cards == old(deck.cards)
    ensures handSize * numPlayers <= |old(deck.cards)| && numPlayers < 0 ==>
      r == Failure(OutOfRange) && deck.cards == old(deck.cards)
    ensures handSize * numPlayers <= |old(deck.cards)| && numPlayers >= 0 ==>
      var rounds := if handSize < 0 then 0 else handSize;
      && Mul(rounds, numPlayers) == rounds * numPlayers <= |old(deck.cards)|
      && r.Success? && |r.value| == numPlayers
      && (forall h :: 0 <= h < numPlayers ==> fresh(r.value[h]) && r.value[h] != deck)
      && (forall h, g :: 0 <= h < g < numPlayers ==> r.value[h] != r.value[g])
      && (forall h :: 0 <= h < numPlayers ==>
            r.value[h].cards == DealtHand(old(deck.cards), numPlayers, rounds, h))
      && deck.cards == old(deck.cards)[Mul(rounds, numPlayers)..]
  {
    if handSize * numPlayers > |deck.cards| {
      return Failure(InsufficientCards);
    }
    if numPlayers < 0 {
      return Failure(OutOfRange);
    }
    var rounds := if handSize < 0 then 0 else handSize;
    MulIsProduct(rounds, numPlayers);
    ghost var s := deck.cards;
    var hands: seq<CardCollection<T>> := [];
    while |hands| < numPlayers
      invariant |hands| <= numPlayers
      invariant forall h :: 0 <= h < |hands| ==> fresh(hands[h]) && hands[h].cards == []
      invariant forall h, g :: 0 <= h < g < |hands| ==> hands[h] != hands[g]
      invariant deck.cards == s
    {
      var hand := new CardCollection<T>();
      hands := hands + [hand];
    }
    var cardInd := 0;
    while cardInd < handSize
      invariant 0 <= cardInd <= rounds
      invariant Mul(cardInd, numPlayers) <= |s|
      invariant deck.cards == s[Mul(cardInd, numPlayers)..]
      invariant forall h :: 0 <= h < numPlayers ==> fresh(hands[h]) && hands[h] != deck
      invariant forall h, g :: 0 <= h < g < numPlayers ==> hands[h] != hands[g]
      invariant forall h :: 0 <= h < numPlayers ==> hands[h].cards == DealtHand(s, numPlayers, cardInd, h)
    {
      MulMonotone(cardInd + 1, rounds, numPlayers);
      DealRound(deck, hands, s, cardInd, cardInd + 1);
      cardInd := cardInd + 1;
    }
    return Success(hands);
  }

  /** One round of the deal: each seat in turn draws the deck's front card. */
  method DealRound<T(==)>(deck: CardCollection<T>, hands: seq<CardCollection<T>>, ghost s: seq<T>, ghost k: nat, ghost next: nat)
    requires next == k + 1 && Mul(next, |hands|) <= |s|
    requires forall h :: 0 <= h < |hands| ==> hands[h] != deck
    requires forall h, g :: 0 <= h < g < |hands| ==> hands[h] != hands[g]
    requires deck.cards == s[Mul(k, |hands|)..]
    requires forall h :: 0 <= h < |hands| ==> hands[h].cards == DealtHand(s, |hands|, k, h)
    modifies deck, hands
    ensures deck.cards == s[Mul(next, |hands|)..]
    ensures forall h :: 0 <= h < |hands| ==> hands[h].cards == DealtHand(s, |hands|, next, h)
  {
    var seats := |hands|;
    ghost var base := Mul(k, seats);
    assert Mul(next, seats) == base + seats;
    var hand := 0;
    while hand < seats
      invariant 0 <= hand <= seats
      invariant deck.cards == s[base + hand..]
      invariant forall h :: 0 <= h < seats ==> hands[h].cards == DealtHand(s, seats, if h < hand then next else k, h)
    {
      DealtHandStep(s, seats, k, next, hand);
      assert s[base + hand..][1..] == s[base + hand + 1..];
      DealOne(deck, hands[hand]);
      hand := hand + 1;
    }
  }

  /** One card of the deal: the deck's front card is drawn and appended to `hand`. */
  method DealOne<T(==)>(deck: CardCollection<T>, hand: CardCollection<T>)
    requires deck != hand && deck.cards != []
    modifies deck, hand
    ensures deck.cards == old(deck.cards)[1..]
    ensures hand.cards == old(hand.cards) + [old(deck.cards)[0]]
  {
    var card := deck.Draw(0);
    hand.AddCard(card.value, false, 0);
  }

  /** Hands that each gain one card hold, together, the cards they held plus the cards they gained. */
  lemma {:induction false} AllCardsAppendEach<T>(hs: seq<seq<T>>, xs: seq<T>, gs: seq<seq<T>>)
    requires |hs| == |xs| == |gs|
    requires forall h :: 0 <= h < |hs| ==> gs[h] == hs[h] + [xs[h]]
    ensures AllCards(gs) == AllCards(hs) + multiset(xs)
    decreases |hs|
  {
    if hs != [] {
      var n := |hs| - 1;
      AllCardsAppendEach(hs[..n], xs[..n], gs[..n]);
      assert xs == xs[..n] + [xs[n]];
    }
  }

  lemma {:induction false} AllCardsEmpty<T>(hs: seq<seq<T>>)
    requires forall h :: 0 <= h < |hs| ==> hs[h] == []
    ensures AllCards(hs) == multiset{}
    decreases |hs|
  {
    if hs != [] {
      AllCardsEmpty(hs[..|hs| - 1]);
    }
  }

  lemma SliceSplit<T>(s: seq<T>, lo: nat, hi: nat)
    requires lo <= hi <= |s|
    ensures multiset(s[lo..]) == multiset(s[lo..hi]) + multiset(s[hi..])
  {
    assert s[lo..] == s[lo..hi] + s[hi..];
  }

  /** A deal neither creates nor loses a card: the dealt hands and the rest of the deck are the deck. */
  lemma {:induction false} DealKeepsCards<T>(s: seq<T>, seats: nat, rounds: nat)
    requires Mul(rounds, seats) <= |s|
    ensures AllCards(DealtHands(s, seats, rounds)) + multiset(s[Mul(rounds, seats)..]) == multiset(s)
    decreases rounds
  {
    if rounds == 0 {
      AllCardsEmpty(DealtHands(s, seats, 0));
      assert s[0..] == s;
    } else {
      var k := rounds - 1;
      assert Mul(k, seats) <= Mul(rounds, seats);
      DealKeepsCards(s, seats, k);
      DealOneMoreRound(s, seats, k, rounds);
    }
  }

  /** One more round appends, to each seat's hand, its card from the next `seats` cards of the deck. */
  lemma DealtHandsGrow<T>(s: seq<T>, seats: nat, k: nat, next: nat)
    requires next == k + 1 && Mul(next, seats) <= |s|
    ensures Mul(next, seats) == Mul(k, seats) + seats
    ensures |DealtHands(s, seats, k)| == |DealtHands(s, seats, next)| == seats
    ensures forall h :: 0 <= h < seats ==>
      DealtHands(s, seats, next)[h] == DealtHands(s, seats, k)[h] + [s[Mul(k, seats)..Mul(next, seats)][h]]
  {
    var lo := Mul(k, seats);
    var xs := s[lo..lo + seats];
    forall h | 0 <= h < seats
      ensures DealtHands(s, seats, next)[h] == DealtHands(s, seats, k)[h] + [xs[h]]
    {
      DealtHandStep(s, seats, k, next, h);
      assert xs[h] == s[lo + h];
    }
  }

  /** Dealing one more round moves the next `seats` cards of the deck into the hands. */
  lemma DealOneMoreRound<T>(s: seq<T>, seats: nat, k: nat, next: nat)
    requires next == k + 1 && Mul(next, seats) <= |s|
    requires AllCards(DealtHands(s, seats, k)) + multiset(s[Mul(k, seats)..]) == multiset(s)
    ensures AllCards(DealtHands(s, seats, next)) + multiset(s[Mul(next, seats)..]) == multiset(s)
  {
    DealtHandsGrow(s, seats, k, next);
    var lo, hi := Mul(k, seats), Mul(next, seats);
    var xs := s[lo..hi];
    var before, after := DealtHands(s, seats, k), DealtHands(s, seats, next);
    AllCardsAppendEach(before, xs, after);
    SliceSplit(s, lo, hi);
    calc {
      AllCards(after) + multiset(s[hi..]);
      AllCards(before) + multiset(xs) + multiset(s[hi..]);
      AllCards(before) + multiset(s[lo..]);
    }
  }

  /**
   * The number of hands the deal returns as the source writes it. The result list
   * is created with `numPlayers` as its capacity, so it holds no hands: the first
   * `result[hand]` of a deal that draws a card is out of range, and a deal that
   * draws nothing returns an empty list.
   */
  function DealAsWritten(count: nat, handSize: int, numPlayers: int): (r: Result<nat>)
    ensures r.Success? ==> r.value == 0
  {
    if handSize * numPlayers > count then Failure(InsufficientCards)
    else if numPlayers < 0 then Failure(OutOfRange)
    else if handSize > 0 && numPlayers > 0 then Failure(OutOfRange)
    else Success(0)
  }

  /**
   * As written, every deal the deck has cards for fails once it has a card to hand
   * out, and no deal returns the `numPlayers` hands its documentation promises.
   */
  lemma DealAsWrittenFails(count: nat, handSize: int, numPlayers: int)
    requires 0 < handSize && 0 < numPlayers && handSize * numPlayers <= count
    ensures DealAsWritten(count, handSize, numPlayers) == Failure(OutOfRange)
    ensures DealAsWritten(count, handSize, numPlayers) != Success(numPlayers)
  {
  }
}

=== FILE: flush_checker.dfy ===
/**
 * The flush checker: group the pool by suit, follow the group that is largest so
 * far, and report the first `handSize` cards of that suit.
 */
module FlushChecker {
  import opened Wrappers
  import opened CardSuits
  import opened PlayingCard
  import opened Seqs
  import opened PokerHands
  import opened CardRanks

  /** The cards of suit `t`, in pool order. */
  function SuitCards(s: seq<Card>, t: Suit): (g: seq<Card>)
    ensures |g| <= |s|
    decreases |s|
  {
    if s == [] then []
    else SuitCards(s[..|s| - 1], t) + (if s[|s| - 1].suit == t then [s[|s| - 1]] else [])
  }

  /** A suit group holds exactly the pool's cards of that suit, in pool order. */
  lemma {:induction false} SuitCardsMembers(s: seq<Card>, t: Suit)
    ensures forall c :: c in SuitCards(s, t) <==> c in s && c.suit == t
    ensures Subsequence(SuitCards(s, t), s)
    decreases |s|
  {
    if s == [] {
      SubsequenceReflexive(s);
    } else {
      var s' := s[..|s| - 1];
      var c := s[|s| - 1];
      SuitCardsMembers(s', t);
      assert s == s' + [c];
      SubsequenceExtend(SuitCards(s', t), s', c);
      if c.suit == t {
        assert SuitCards(s, t) == SuitCards(s', t) + [c];
      } else {
        assert SuitCards(s, t) == SuitCards(s', t);
      }
    }
  }

  /**
   * The suit `mostInSuit` refers to after each card. The variable holds a reference
   * to a suit's list, which keeps growing; it moves to the current card's suit when
   * that suit's list is now strictly longer.
   */
  function MostInSuit(s: seq<Card>): (m: Option<Suit>)
    ensures m.Some? <==> s != []
    decreases |s|
  {
    if s == [] then None
    else
      var m := MostInSuit(s[..|s| - 1]);
      var t := s[|s| - 1].suit;
      if m.None? || |SuitCards(s, m.value)| < |SuitCards(s, t)| then Some(t) else m
  }

  /** Adding a card grows its own suit by one and leaves the other suits alone. */
  lemma SuitCardsAppend(s: seq<Card>, c: Card, t: Suit)
    ensures SuitCards(s + [c], t) == SuitCards(s, t) + (if c.suit == t then [c] else [])
  {
    assert (s + [c])[..|s|] == s;
  }

  /** A prefix of the pool never has more cards of a suit than the pool. */
  lemma {:induction false} SuitCardsPrefix(s: seq<Card>, k: nat, t: Suit)
    requires k <= |s|
    ensures |SuitCards(s[..k], t)| <= |SuitCards(s, t)|
    decreases |s|
  {
    if k < |s| {
      var s' := s[..|s| - 1];
      assert s[..k] == s'[..k];
      SuitCardsPrefix(s', k, t);
      SuitCardsAppend(s', s[|s| - 1], t);
      assert s == s' + [s[|s| - 1]];
    } else {
      assert s[..k] == s;
    }
  }

  /**
   * The suit followed is a largest one, and it reached its final size first:
   * whenever any suit had that many cards in a prefix of the pool, so did it.
   */
  lemma {:induction false} MostInSuitLargest(s: seq<Card>)
    requires s != []
    ensures forall t :: |SuitCards(s, t)| <= |SuitCards(s, MostInSuit(s).value)|
    ensures var max := |SuitCards(s, MostInSuit(s).value)|;
      forall k, t :: 0 <= k <= |s| && |SuitCards(s[..k], t)| == max ==>
        |SuitCards(s[..k], MostInSuit(s).value)| == max
    decreases |s|
  {
    var s' := s[..|s| - 1];
    var c := s[|s| - 1];
    LastSplit(s);
    var m := MostInSuit(s).value;
    var max := |SuitCards(s, m)|;
    forall t ensures SuitCards(s, t) == SuitCards(s', t) + (if c.suit == t then [c] else []) {
      SuitCardsAppend(s', c, t);
    }
    assert s[..|s|] == s;
    if s' == [] {
      forall k, t | 0 <= k < |s| ensures |SuitCards(s[..k], t)| < max {
        assert s[..k] == [];
      }
    } else {
      MostInSuitLargest(s');
      var m' := MostInSuit(s').value;
      if m == m' && c.suit != m {
        forall k, t | 0 <= k < |s| && |SuitCards(s[..k], t)| == max
          ensures |SuitCards(s[..k], m)| == max
        {
          PrefixOfPrefix(s, k, |s| - 1);
        }
      } else {
        forall k, t | 0 <= k < |s| ensures |SuitCards(s[..k], t)| < max {
          PrefixOfPrefix(s, k, |s| - 1);
          SuitCardsPrefix(s', k, t);
        }
      }
    }
  }

  /** The checker's answer: the first `n` cards of the followed suit, when it has that many. */
  function FlushHand(s: seq<Card>, n: nat): Option<PokerHand>
    requires n >= 5
  {
    if !EnoughCards(s, n) then None
    else
      var m := MostInSuit(s).value;
      if |SuitCards(s, m)| < n then None
      else Some(PokerHand(SuitCards(s, m)[..n], Flush))
  }

  /** One pass over the pool: the suit lists (reset to empty first) and the suit `mostInSuit` ends on. */
  method GroupSuits(cards: seq<Card>) returns (suitCards: map<Suit, seq<Card>>, mostInSuit: Option<Suit>)
    ensures forall t :: t in suitCards && suitCards[t] == SuitCards(cards, t)
    ensures mostInSuit == MostInSuit(cards)
  {
    suitCards := map[];
    for j := 0 to |Suits|
      invariant forall i :: 0 <= i < j ==> Suits[i] in suitCards && suitCards[Suits[i]] == []
    {
      suitCards := suitCards[Suits[j] := []];
    }
    forall t ensures t in suitCards && suitCards[t] == SuitCards(cards[..0], t) {
      assert Suits[SuitIndex(t)] == t;
    }
    mostInSuit := None;
    for i := 0 to |cards|
      invariant forall t :: t in suitCards && suitCards[t] == SuitCards(cards[..i], t)
      invariant mostInSuit == MostInSuit(cards[..i])
    {
      var c := cards[i];
      PrefixStep(cards, i);
      PrefixOfPrefix(cards, i, i + 1);
      ghost var before := suitCards;
      suitCards := suitCards[c.suit := suitCards[c.suit] + [c]];
      forall t ensures t in suitCards && suitCards[t] == SuitCards(cards[..i + 1], t) {
        SuitCardsAppend(cards[..i], c, t);
        if t != c.suit {
          assert suitCards[t] == before[t];
        }
      }
      if mostInSuit.None? || |suitCards[mostInSuit.value]| < |suitCards[c.suit]| {
        mostInSuit := Some(c.suit);
      }
    }
    assert cards[..|cards|] == cards;
  }

  /** One call of the checker. */
  method CheckHand(cards: seq<Card>, handSize: nat) returns (r: Option<PokerHand>)
    requires handSize >= 5
    ensures r == FlushHand(cards, handSize)
  {
    if !EnoughCards(cards, handSize) {
      return None;
    }
    var suitCards, mostInSuit := GroupSuits(cards);
    if mostInSuit.None? || |suitCards[mostInSuit.value]| < handSize {
      return None;
    }
    return Some(PokerHand(suitCards[mostInSuit.value][..handSize], Flush));
  }

  /** A flush is found exactly when the pool is large enough and some suit has `n` cards. */
  lemma FlushFinds(s: seq<Card>, n: nat)
    requires n >= 5
    ensures FlushHand(s, n).Some? <==> |s| >= n && exists t :: |SuitCards(s, t)| >= n
  {
    if |s| >= n {
      MostInSuitLargest(s);
      var m := MostInSuit(s).value;
      if |SuitCards(s, m)| >= n {
        assert exists t :: |SuitCards(s, t)| >= n;
      }
    }
  }

  /**
   * A found flush has `n` cards of one suit, taken from the pool in pool order:
   * the first `n` cards of the suit `mostInSuit` ends on, a suit no other outnumbers.
   */
  lemma FlushHandShape(s: seq<Card>, n: nat)
    requires n >= 5 && FlushHand(s, n).Some?
    ensures var h := FlushHand(s, n).value;
      var g := SuitCards(s, h.cards[0].suit);
      && h.rank == Flush && |h.cards| == n && ValidHand(h)
      && (forall c :: c in h.cards ==> c.suit == h.cards[0].suit)
      && Subsequence(h.cards, s)
      && h.cards[0].suit == MostInSuit(s).value
      && n <= |g| && h.cards == g[..n]
      && forall t :: |SuitCards(s, t)| <= |g|
  {
    var m := MostInSuit(s).value;
    var g := SuitCards(s, m);
    SuitCardsMembers(s, m);
    MostInSuitLargest(s);
    SubsequencePrefix(g, s, n);
    assert g[0] in g;
    assert forall c :: c in g[..n] ==> c in g;
  }
}

=== FILE: hand_rank_checker.dfy ===
/**
 * Finding the best hand in a pool: the table of checkers keyed by the rank they
 * look for, walked strongest rank first, and the high-card hand made of the first
 * `handSize` cards when no checker finds anything.
 *
 * The walk covers every rank, HighCard included, but the table has no HighCard
 * entry; a rank without an entry is skipped here, so the nine entries are consulted
 * and then the high-card hand is built.
 */
module HandRankChecker {
  import opened Wrappers
  import opened PlayingCard
  import opened Seqs
  import opened PokerHands
  import opened CardRanks
  import opened SetCheckers
  import FlushChecker
  import StraightChecker
  import StraightFlushChecker
  import RoyalFlushChecker

  /** The checker objects of the table. */
  datatype Checker =
    | RoyalFlushCheck
    | StraightFlushCheck
    | SetCheck(kind: SetChecker)
    | FlushCheck
    | StraightCheck

  /** The table: which checker looks for which rank; HighCard has no entry. */
  function Checkers(r: HandRank): Option<Checker> {
    match r
    case RoyalFlush => Some(RoyalFlushCheck)
    case StraightFlush => Some(StraightFlushCheck)
    case FourOfAKind => Some(SetCheck(FourOfAKindChecker))
    case FullHouse => Some(SetCheck(FullHouseChecker))
    case Flush => Some(FlushCheck)
    case Straight => Some(StraightCheck)
    case ThreeOfAKind => Some(SetCheck(ThreeOfAKindChecker))
    case TwoPair => Some(SetCheck(TwoPairChecker))
    case Pair => Some(SetCheck(PairChecker))
    case HighCard => None
  }

  /** The answer of one checker: no hand, a hand, or the set checkers' "could not build" failure. */
  function Run(c: Checker, s: seq<Card>, n: nat): Result<Option<PokerHand>>
    requires n >= 5
  {
    match c
    case RoyalFlushCheck => Success(RoyalFlushChecker.RoyalFlushHand(s, n))
    case StraightFlushCheck => Success(StraightFlushChecker.StraightFlushHand(s, n))
    case SetCheck(kind) => CheckSet(kind, s, n)
    case FlushCheck => Success(FlushChecker.FlushHand(s, n))
    case StraightCheck => Success(StraightChecker.StraightHand(s, n))
  }

  /** Consulting the table for one rank; a rank without an entry finds nothing. */
  function Consult(r: HandRank, s: seq<Card>, n: nat): Result<Option<PokerHand>>
    requires n >= 5
  {
    match Checkers(r)
    case Some(c) => Run(c, s, n)
    case None => Success(None)
  }

  /** The answer of the table entry for each rank of `ranks`, in order. */
  function Answers(ranks: seq<HandRank>, s: seq<Card>, n: nat): (rs: seq<Result<Option<PokerHand>>>)
    requires n >= 5
    ensures |rs| == |ranks|
  {
    seq(|ranks|, j requires 0 <= j < |ranks| => Consult(ranks[j], s, n))
  }

  /** The first answer other than "no hand", or "no hand" when every answer is. */
  function FirstOf(rs: seq<Result<Option<PokerHand>>>): Result<Option<PokerHand>>
    decreases |rs|
  {
    if rs == [] then Success(None)
    else if rs[0] == Success(None) then FirstOf(rs[1..])
    else rs[0]
  }

  /** The best hand: the first hand (or failure) along the strongest-first walk, else the first `n` cards as a high-card hand. */
  function BestHand(s: seq<Card>, n: nat): Result<PokerHand>
    requires n >= 5
  {
    match FirstOf(Answers(HandRanks, s, n))
    case Failure(e) => Failure(e)
    case Success(Some(h)) => Success(h)
    case Success(None) => if |s| < n then Failure(OutOfRange) else NewPokerHand(s[..n], HighCard)
  }

  /** One call through the table: the checker's own `CheckHand`. */
  method CheckWith(c: Checker, cards: seq<Card>, handSize: nat) returns (r: Result<Option<PokerHand>>)
    requires handSize >= 5
    ensures r == Run(c, cards, handSize)
  {
    match c {
      case RoyalFlushCheck =>
        var h := RoyalFlushChecker.CheckHand(cards, handSize);
        r := Success(h);
      case StraightFlushCheck =>
        var h := StraightFlushChecker.CheckHand(cards, handSize);
        r := Success(h);
      case SetCheck(kind) =>
        r := SetCheckers.CheckHand(kind, cards, handSize);
      case FlushCheck =>
        var h := FlushChecker.CheckHand(cards, handSize);
        r := Success(h);
      case StraightCheck =>
        var h := StraightChecker.CheckHand(cards, handSize);
        r := Success(h);
    }
  }

  /** The walk over the ranks, strongest first, returning the first hand found. */
  method FindBestHand(cards: seq<Card>, handSize: nat) returns (r: Result<PokerHand>)
    requires handSize >= 5
    ensures r == BestHand(cards, handSize)
  {
    ghost var answers := Answers(HandRanks, cards, handSize);
    for i := 0 to |HandRanks|
      invariant FirstOf(answers) == FirstOf(answers[i..])
    {
      var rank := HandRanks[i];
      assert answers[i..][1..] == answers[i + 1..];
      assert answers[i..][0] == Consult(rank, cards, handSize);
      if Checkers(rank).Some? {
        var hand := CheckWith(Checkers(rank).value, cards, handSize);
        if hand.Failure? {
          return Failure(hand.error);
        }
        if hand.value.Some? {
          return Success(hand.value.value);
        }
      }
    }
    if |cards| < handSize {
      return Failure(OutOfRange);
    }
    return Success(PokerHand(cards[..handSize], HighCard));
  }

  /** The ranks a hand found through the table entry for `r` can be tagged with. */
  function Labels(r: HandRank): set<HandRank> {
    if r == StraightFlush then {Straight, StraightFlush} else {r}
  }

  /**
   * The table has an entry for every rank but HighCard, the walk consults them in the
   * order RoyalFlush, StraightFlush, FourOfAKind, FullHouse, Flush, Straight,
   * ThreeOfAKind, TwoPair, Pair, and each entry's checker reports its own rank.
   */
  lemma CheckerTable()
    ensures forall r :: Checkers(r).Some? <==> r != HighCard
    ensures HandRanks[..9] == [RoyalFlush, StraightFlush, FourOfAKind, FullHouse, Flush, Straight, ThreeOfAKind, TwoPair, Pair]
    ensures HandRanks[9] == HighCard
    ensures forall r :: Checkers(r).Some? && Checkers(r).value.SetCheck? ==> SetRank(Checkers(r).value.kind) == r
  {
  }

  /**
   * What a table entry may answer: a hand tagged with one of `labels`, of `n` or five
   * pool cards; no hand when the pool has fewer than `n` cards; never a failure on a
   * pool without repeated cards.
   */
  predicate Acceptable(res: Result<Option<PokerHand>>, labels: set<HandRank>, s: seq<Card>, n: nat) {
    && (res.Success? && res.value.Some? ==>
          var h := res.value.value;
          && h.rank in labels && ValidHand(h)
          && (|h.cards| == n || |h.cards| == 5)
          && forall c :: c in h.cards ==> c in s)
    && (|s| < n ==> res == Success(None))
    && (NoDuplicates(s) ==> res.Success?)
  }

  /** The royal-flush entry never finds a hand. */
  lemma RoyalEntry(s: seq<Card>, n: nat)
    requires n >= 5
    ensures Acceptable(Success(RoyalFlushChecker.RoyalFlushHand(s, n)), {}, s, n)
  {
    RoyalFlushChecker.RoyalNeverMatches(s, n);
  }

  /** The straight-flush entry's hand is tagged Straight or StraightFlush. */
  lemma StraightFlushEntry(s: seq<Card>, n: nat)
    requires n >= 5
    ensures Acceptable(Success(StraightFlushChecker.StraightFlushHand(s, n)), {Straight, StraightFlush}, s, n)
  {
    if StraightFlushChecker.StraightFlushHand(s, n).Some? {
      StraightFlushChecker.StraightFlushShape(s, n);
    }
  }

  /** A set entry's hand is tagged with the checker's rank. */
  lemma SetEntry(kind: SetChecker, s: seq<Card>, n: nat)
    requires n >= 5
    ensures Acceptable(CheckSet(kind, s, n), {SetRank(kind)}, s, n)
  {
    SetCheckerFinds(kind, s, n);
    if NoDuplicates(s) {
      DistinctPoolBuilds(kind, s, n);
    }
    if CheckSet(kind, s, n).Success? && CheckSet(kind, s, n).value.Some? {
      SetHandShape(kind, s, n);
    }
  }

  /** The flush entry's hand is tagged Flush. */
  lemma FlushEntry(s: seq<Card>, n: nat)
    requires n >= 5
    ensures Acceptable(Success(FlushChecker.FlushHand(s, n)), {Flush}, s, n)
  {
    if FlushChecker.FlushHand(s, n).Some? {
      FlushChecker.FlushHandShape(s, n);
      SubsequenceMembers(FlushChecker.FlushHand(s, n).value.cards, s);
    }
  }

  /** The straight entry's hand is tagged Straight. */
  lemma StraightEntry(s: seq<Card>, n: nat)
    requires n >= 5
    ensures Acceptable(Success(StraightChecker.StraightHand(s, n)), {Straight}, s, n)
  {
    if StraightChecker.StraightHand(s, n).Some? {
      StraightChecker.StraightHandShape(s, n);
    }
  }

  /**
   * What consulting the table for a rank can answer: a hand tagged with that rank
   * (or Straight, for the straight-flush entry), and never a hand from the
   * royal-flush entry.
   */
  lemma ConsultShape(r: HandRank, s: seq<Card>, n: nat)
    requires n >= 5
    ensures Acceptable(Consult(r, s, n), if r == RoyalFlush then {} else Labels(r), s, n)
  {
    match r
    case RoyalFlush => RoyalEntry(s, n);
    case StraightFlush => StraightFlushEntry(s, n);
    case FourOfAKind => SetEntry(FourOfAKindChecker, s, n);
    case FullHouse => SetEntry(FullHouseChecker, s, n);
    case Flush => FlushEntry(s, n);
    case Straight => StraightEntry(s, n);
    case ThreeOfAKind => SetEntry(ThreeOfAKindChecker, s, n);
    case TwoPair => SetEntry(TwoPairChecker, s, n);
    case Pair => SetEntry(PairChecker, s, n);
    case HighCard =>
  }

  /**
   * The walk answers "no hand" exactly when every answer is "no hand"; otherwise its
   * answer is one all of whose predecessors are "no hand".
   */
  lemma {:induction false} FirstOfIsFirst(rs: seq<Result<Option<PokerHand>>>)
    ensures FirstOf(rs) == Success(None) <==> forall j :: 0 <= j < |rs| ==> rs[j] == Success(None)
    ensures FirstOf(rs) != Success(None) ==>
      exists i :: 0 <= i < |rs| && FirstOf(rs) == rs[i] && forall j :: 0 <= j < i ==> rs[j] == Success(None)
    decreases |rs|
  {
    if rs != [] {
      var rest := rs[1..];
      FirstOfIsFirst(rest);
      assert forall j :: 0 < j < |rs| ==> rs[j] == rest[j - 1];
      if rs[0] == Success(None) && FirstOf(rest) != Success(None) {
        var i :| 0 <= i < |rest| && FirstOf(rest) == rest[i] && forall j :: 0 <= j < i ==> rest[j] == Success(None);
        assert rs[i + 1] == rest[i];
      }
    }
  }

  /** Once an answer is other than "no hand", no later one matters: it is the walk's answer. */
  lemma {:induction false} FirstOfWins(rs: seq<Result<Option<PokerHand>>>, i: nat)
    requires i < |rs|
    requires forall j :: 0 <= j < i ==> rs[j] == Success(None)
    requires rs[i] != Success(None)
    ensures FirstOf(rs) == rs[i]
    decreases i
  {
    if i > 0 {
      var rest := rs[1..];
      assert rs[0] == Success(None);
      assert forall j :: 0 <= j < i - 1 ==> rest[j] == rs[j + 1];
      FirstOfWins(rest, i - 1);
    }
  }

  /**
   * The best hand is the answer of the first table entry, strongest rank first, that
   * finds a hand or fails.
   */
  lemma BestHandIsFirstMatch(s: seq<Card>, n: nat, i: nat)
    requires n >= 5 && i < 9
    requires forall j :: 0 <= j < i ==> Consult(HandRanks[j], s, n) == Success(None)
    requires Consult(HandRanks[i], s, n) != Success(None)
    ensures var r := Consult(HandRanks[i], s, n);
      BestHand(s, n) == if r.Success? then Success(r.value.value) else Failure(r.error)
  {
    FirstOfWins(Answers(HandRanks, s, n), i);
  }

  /** When no entry finds a hand, the answer is the high-card hand of the first `n` cards, or a range failure. */
  lemma HighCardFallback(s: seq<Card>, n: nat)
    requires n >= 5
    requires forall j :: 0 <= j < 9 ==> Consult(HandRanks[j], s, n) == Success(None)
    ensures BestHand(s, n) == if |s| < n then Failure(OutOfRange) else Success(PokerHand(s[..n], HighCard))
  {
    var rs := Answers(HandRanks, s, n);
    assert rs[9] == Success(None);
    FirstOfIsFirst(rs);
  }

  /** A best hand holds `n` (or, from an over-long set, five) cards of the pool, and is never a royal flush. */
  lemma BestHandShape(s: seq<Card>, n: nat)
    requires n >= 5 && BestHand(s, n).Success?
    ensures var h := BestHand(s, n).value;
      && ValidHand(h)
      && (|h.cards| == n || |h.cards| == 5)
      && (forall c :: c in h.cards ==> c in s)
      && h.rank != RoyalFlush
  {
    var rs := Answers(HandRanks, s, n);
    FirstOfIsFirst(rs);
    if FirstOf(rs) != Success(None) {
      var i :| 0 <= i < |rs| && FirstOf(rs) == rs[i] && forall j :: 0 <= j < i ==> rs[j] == Success(None);
      ConsultShape(HandRanks[i], s, n);
    } else {
      assert forall c :: c in s[..n] ==> c in s;
    }
  }

  /** A best hand is tagged HighCard exactly when no table entry found a hand. */
  lemma BestHandIsHighCard(s: seq<Card>, n: nat)
    requires n >= 5 && BestHand(s, n).Success?
    ensures BestHand(s, n).value.rank == HighCard <==>
      forall j :: 0 <= j < |HandRanks| ==> Consult(HandRanks[j], s, n) == Success(None)
  {
    var rs := Answers(HandRanks, s, n);
    FirstOfIsFirst(rs);
    forall j | 0 <= j < |rs| ensures rs[j] == Consult(HandRanks[j], s, n) {
    }
    if FirstOf(rs) != Success(None) {
      var i :| 0 <= i < |rs| && FirstOf(rs) == rs[i] && forall j :: 0 <= j < i ==> rs[j] == Success(None);
      ConsultShape(HandRanks[i], s, n);
      assert HandRanks[i] != HighCard;
    }
  }

  /** Fewer than `n` cards is a range failure; a pool of at least `n` distinct cards always yields a hand. */
  lemma BestHandSucceeds(s: seq<Card>, n: nat)
    requires n >= 5
    ensures |s| < n ==> BestHand(s, n) == Failure(OutOfRange)
    ensures |s| >= n && NoDuplicates(s) ==> BestHand(s, n).Success?
  {
    var rs := Answers(HandRanks, s, n);
    forall j | 0 <= j < |rs| ensures (|s| < n ==> rs[j] == Success(None)) && (NoDuplicates(s) ==> rs[j].Success?) {
      ConsultShape(HandRanks[j], s, n);
    }
    FirstOfIsFirst(rs);
  }

  /** Consulting the table as the source writes it: a rank without an entry is a missing key. */
  function ConsultAsWritten(r: HandRank, s: seq<Card>, n: nat): (res: Result<Option<PokerHand>>)
    requires n >= 5
    ensures Checkers(r).Some? ==> res == Consult(r, s, n)
    ensures Checkers(r).None? ==> res == Failure(KeyNotFound)
  {
    match Checkers(r)
    case Some(c) => Run(c, s, n)
    case None => Failure(KeyNotFound)
  }

  /** The best hand as the source writes it: the walk reaches HighCard's missing entry before the fallback. */
  function BestHandAsWritten(s: seq<Card>, n: nat): Result<PokerHand>
    requires n >= 5
  {
    var answers := seq(|HandRanks|, j requires 0 <= j < |HandRanks| => ConsultAsWritten(HandRanks[j], s, n));
    match FirstOf(answers)
    case Failure(e) => Failure(e)
    case Success(Some(h)) => Success(h)
    case Success(None) => if |s| < n then Failure(OutOfRange) else NewPokerHand(s[..n], HighCard)
  }

  /**
   * As written, a pool in which none of the nine entries finds a hand ends in the
   * missing-key failure, where the fallback builds a high-card hand for any pool of
   * at least `n` cards.
   */
  lemma MissingHighCardEntryFails(s: seq<Card>, n: nat)
    requires n >= 5
    requires forall j :: 0 <= j < 9 ==> Consult(HandRanks[j], s, n) == Success(None)
    ensures BestHandAsWritten(s, n) == Failure(KeyNotFound)
    ensures |s| >= n ==> BestHand(s, n) == Success(PokerHand(s[..n], HighCard))
  {
    var answers := seq(|HandRanks|, j requires 0 <= j < |HandRanks| => ConsultAsWritten(HandRanks[j], s, n));
    CheckerTable();
    FirstOfWins(answers, 9);
    HighCardFallback(s, n);
  }
}

=== FILE: playing_card.dfy ===
/**
 * The standard playing card of the poker demo: an immutable (suit, value) pair
 * with values Two = 2 up to Ace = 14 (Ace high). Ordering looks at the value only;
 * equality looks at suit and value.
 */
module PlayingCard {
  import opened Wrappers
  import opened CardSuits

  const MinValue: int := 2
  const MaxValue: int := 14
  const Ten: int := 10
  const Jack: int := 11
  const Queen: int := 12
  const King: int := 13
  const Ace: int := 14

  /** The card values in declaration order, Two to Ace. */
  const Values: seq<int> := [2, 3, 4, 5, 6, 7, 8, 9, 10, 11, 12, 13, 14]

  /** A card. The value is the enum's underlying integer, which a cast can put outside 2..14. */
  datatype Card = Card(suit: Suit, value: int)

  predicate ValidValue(v: int) {
    MinValue <= v <= MaxValue
  }

  /** The other operand of `CompareTo` and `Equals`: null, a playing card, or any other card or object. */
  datatype CardRef = NullRef | PlayingRef(card: Card) | ForeignRef

  /** Orders by value only; null sorts below every card and a foreign card kind is rejected. */
  function CompareTo(c: Card, other: CardRef): (r: Result<int>)
    ensures other.NullRef? ==> r == Success(1)
    ensures other.ForeignRef? ==> r == Failure(TypeMismatch)
    ensures other.PlayingRef? ==>
      && r.Success? && -1 <= r.value <= 1
      && (r.value < 0 <==> c.value < other.card.value)
      && (r.value == 0 <==> c.value == other.card.value)
  {
    match other
    case NullRef => Success(1)
    case ForeignRef => Failure(TypeMismatch)
    case PlayingRef(d) =>
      Success(if c.value < d.value then -1 else if c.value == d.value then 0 else 1)
  }

  /** Holds exactly when the other operand is a playing card of the same suit and value. */
  function Equals(c: Card, other: CardRef): (b: bool)
    ensures b <==> other == PlayingRef(c)
  {
    other.PlayingRef? && other.card.value == c.value && other.card.suit == c.suit
  }

  function HashCode(c: Card): int {
    SuitIndex(c.suit) * 7 + c.value
  }

  /** `Equals` is an equivalence on playing cards, and equal cards hash equally. */
  lemma EqualsConsistent(a: Card, b: Card, c: Card)
    ensures Equals(a, PlayingRef(a))
    ensures Equals(a, PlayingRef(b)) <==> Equals(b, PlayingRef(a))
    ensures Equals(a, PlayingRef(b)) && Equals(b, PlayingRef(c)) ==> Equals(a, PlayingRef(c))
    ensures Equals(a, PlayingRef(b)) ==> HashCode(a) == HashCode(b)
    ensures !Equals(a, NullRef) && !Equals(a, ForeignRef)
  {
  }

  /** Ordering ignores the suit: same value, different suit compares 0 yet is not `Equals`. */
  lemma OrderIgnoresSuit(a: Card, b: Card)
    requires a.value == b.value && a.suit != b.suit
    ensures CompareTo(a, PlayingRef(b)) == Success(0)
    ensures !Equals(a, PlayingRef(b))
  {
  }

  /** Value code: A, J, Q, K for the face values, the numeral for 2..10; no code outside 2..14. */
  function ValueString(v: int): (r: Result<string>)
    ensures r.Failure? <==> !ValidValue(v)
    ensures r.Failure? ==> r.error == NoStringCode
    ensures r.Success? ==> ValueOfCode(r.value) == Some(v)
    ensures r.Success? ==> (IsNumeral(r.value) <==> 2 <= v <= Ten)
    ensures r.Success? ==> |r.value| == (if v == Ten then 2 else 1)
  {
    if v < MinValue || v > MaxValue then Failure(NoStringCode)
    else if v == Ace then LetterStart("A"); Success("A")
    else if v == Jack then LetterStart("J"); Success("J")
    else if v == Queen then LetterStart("Q"); Success("Q")
    else if v == King then LetterStart("K"); Success("K")
    else DecimalRoundTrip(v); Success(Decimal(v))
  }

  /** The value a value code stands for: the reading the codes are meant to allow. */
  function ValueOfCode(s: string): Option<int> {
    if s == "A" then Some(Ace)
    else if s == "J" then Some(Jack)
    else if s == "Q" then Some(Queen)
    else if s == "K" then Some(King)
    else if IsNumeral(s) then Some(ParseDecimal(s))
    else None
  }

  /** Short form: value code followed by suit code, as in "3C", "JD", "AH". */
  function ToString(c: Card): (r: Result<string>)
    ensures r.Failure? <==> !ValidValue(c.value)
    ensures r.Success? ==> CardOfString(r.value) == Some(c)
    ensures r.Success? ==> |r.value| == (if c.value == Ten then 3 else 2)
    ensures r.Success? ==> (IsNumeral(r.value[..|r.value| - 1]) <==> 2 <= c.value <= Ten)
  {
    match ValueString(c.value)
    case Failure(e) => Failure(e)
    case Success(code) =>
      var s := code + SuitString(c.suit);
      SuitCodeRoundTrip(c.suit);
      assert s[..|s| - 1] == code;
      Success(s)
  }

  /** Reads a short form back into a card. */
  function CardOfString(s: string): Option<Card> {
    if |s| < 2 then None
    else match (ValueOfCode(s[..|s| - 1]), SuitOfCode(s[|s| - 1]))
      case (Some(v), Some(t)) => Some(Card(t, v))
      case _ => None
  }

  /** Distinct cards render to distinct short forms. */
  lemma ShortFormsDistinct(a: Card, b: Card)
    requires ToString(a).Success? && ToString(b).Success?
    requires ToString(a) == ToString(b)
    ensures a == b
  {
    assert CardOfString(ToString(a).value) == Some(a);
  }

  /** `Values` lists 2..14 in ascending order. */
  lemma ValuesAscending()
    ensures |Values| == 13
    ensures forall i :: 0 <= i < |Values| ==> Values[i] == MinValue + i
    ensures forall v :: v in Values <==> ValidValue(v)
  {
  }
}

=== FILE: playing_card_deck.dfy ===
/** The 52-card deck of the poker demo (Ace high), built card by card. */
module PlayingCardDeck {
  import opened CardSuits
  import opened PlayingCard
  import opened CardCollections
  import opened Seqs

  /** The unshuffled deck: values outer (Two to Ace), suits inner (Spade, Diamond, Club, Heart). */
  function OrderedDeck(): (d: seq<Card>)
    ensures |d| == |Values| * |Suits| == 52
  {
    seq(52, i requires 0 <= i < 52 => Card(Suits[i % 4], Values[i / 4]))
  }

  /** Position `i` holds suit `i % 4` of the `i / 4`-th value. */
  lemma OrderedDeckAt(i: nat)
    requires i < 52
    ensures OrderedDeck()[i] == Card(Suits[i % 4], MinValue + i / 4)
  {
    ValuesAscending();
  }

  /** Every (suit, value) pair with a value in 2..14 occurs exactly once in the ordered deck, and nothing else. */
  lemma OrderedDeckComplete(c: Card)
    ensures multiset(OrderedDeck())[c] == if ValidValue(c.value) then 1 else 0
  {
    var d := OrderedDeck();
    forall i, j | 0 <= i < j < |d| ensures d[i] != d[j] {
      OrderedDeckAt(i);
      OrderedDeckAt(j);
      if i / 4 == j / 4 {
        assert i % 4 != j % 4;
        SuitsEnumerateEachOnce();
      }
    }
    NoDuplicatesMultiplicity(d, c);
    if ValidValue(c.value) {
      var i := 4 * (c.value - MinValue) + SuitIndex(c.suit);
      assert i / 4 == c.value - MinValue && i % 4 == SuitIndex(c.suit);
      OrderedDeckAt(i);
      assert d[i] == c;
    } else {
      assert c !in d;
    }
  }

  /** The card added at step `k` extends the prefix of the ordered deck by one. */
  lemma OrderedDeckStep(k: nat, card: Card)
    requires k < 52 && card == Card(Suits[k % 4], MinValue + k / 4)
    ensures OrderedDeck()[..k + 1] == OrderedDeck()[..k] + [card]
    ensures multiset(OrderedDeck()[..k + 1]) == multiset(OrderedDeck()[..k]) + multiset{card}
  {
    var d := OrderedDeck();
    OrderedDeckAt(k);
    PrefixStep(d, k);
  }

  /** Position `k = 4 * row + col` of the ordered deck is column `col` of row `row`. */
  lemma Position(k: nat, row: nat, col: nat)
    requires col < 4 && k == 4 * row + col
    ensures k % 4 == col && k / 4 == row
  {
  }

  /**
   * The inner loop of the builder: adds the four cards of one value, one per suit,
   * keeping the deck (up to rearrangement when shuffled) a prefix of the ordered deck.
   */
  method AddRow(deck: CardCollection<Card>, shuffled: bool, randIndices: seq<int>, row: nat, value: int)
    requires row < 13 && value == MinValue + row
    requires shuffled ==> |randIndices| == 52 && forall j :: 0 <= j < 52 ==> RandomRange(randIndices[j], j)
    requires |deck.cards| == 4 * row
    requires !shuffled ==> deck.cards == OrderedDeck()[..4 * row]
    requires multiset(deck.cards) == multiset(OrderedDeck()[..4 * row])
    modifies deck
    ensures |deck.cards| == 4 * row + 4
    ensures !shuffled ==> deck.cards == OrderedDeck()[..4 * row + 4]
    ensures multiset(deck.cards) == multiset(OrderedDeck()[..4 * row + 4])
  {
    for si := 0 to |Suits|
      invariant |deck.cards| == 4 * row + si
      invariant !shuffled ==> deck.cards == OrderedDeck()[..4 * row + si]
      invariant multiset(deck.cards) == multiset(OrderedDeck()[..4 * row + si])
    {
      var k := 4 * row + si;
      Position(k, row, si);
      OrderedDeckStep(k, Card(Suits[si], value));
      deck.AddCard(Card(Suits[si], value), shuffled, if shuffled then randIndices[k] else 0);
    }
  }

  /**
   * Builds the deck by adding each card in turn; when `shuffled` is set each card is
   * inserted at the random index `randIndices[k]` (k = cards already added) instead
   * of appended.
   */
  method NewDeck(shuffled: bool, randIndices: seq<int>) returns (deck: CardCollection<Card>)
    requires shuffled ==> |randIndices| == 52 && forall k :: 0 <= k < 52 ==> RandomRange(randIndices[k], k)
    ensures fresh(deck)
    ensures !shuffled ==> deck.cards == OrderedDeck()
    ensures multiset(deck.cards) == multiset(OrderedDeck())
  {
    deck := new CardCollection<Card>();
    ghost var d := OrderedDeck();
    for vi := 0 to |Values|
      invariant |deck.cards| == 4 * vi
      invariant !shuffled ==> deck.cards == d[..4 * vi]
      invariant multiset(deck.cards) == multiset(d[..4 * vi])
    {
      ValuesAscending();
      AddRow(deck, shuffled, randIndices, vi, Values[vi]);
    }
    assert d[..52] == d;
  }
}

=== FILE: poker_hand.dfy ===
/** A poker hand: at least five cards together with the rank they were found to make. */
module PokerHands {
  import opened Wrappers
  import opened PlayingCard

  /** The hand ranks in declaration order, weakest first. */
  datatype HandRank =
    | HighCard
    | Pair
    | TwoPair
    | ThreeOfAKind
    | Straight
    | Flush
    | FullHouse
    | FourOfAKind
    | StraightFlush
    | RoyalFlush

  /** Every rank, in declaration order. */
  const Ranks: seq<HandRank> :=
    [HighCard, Pair, TwoPair, ThreeOfAKind, Straight, Flush, FullHouse, FourOfAKind, StraightFlush, RoyalFlush]

  /** Every rank, strongest first: the declaration order reversed. */
  const HandRanks: seq<HandRank> :=
    [RoyalFlush, StraightFlush, FourOfAKind, FullHouse, Flush, Straight, ThreeOfAKind, TwoPair, Pair, HighCard]

  /** The underlying integer of a rank: its position in the declaration. */
  function Strength(r: HandRank): (n: nat)
    ensures n < |Ranks| && Ranks[n] == r
  {
    match r
    case HighCard => 0
    case Pair => 1
    case TwoPair => 2
    case ThreeOfAKind => 3
    case Straight => 4
    case Flush => 5
    case FullHouse => 6
    case FourOfAKind => 7
    case StraightFlush => 8
    case RoyalFlush => 9
  }

  /** Each rank's strength is its declared position, and the strongest-first list is the declaration reversed. */
  lemma RanksInDeclarationOrder()
    ensures forall i :: 0 <= i < |Ranks| ==> Strength(Ranks[i]) == i
    ensures |HandRanks| == |Ranks|
    ensures forall i :: 0 <= i < |HandRanks| ==> HandRanks[i] == Ranks[|Ranks| - 1 - i]
  {
    forall i | 0 <= i < |Ranks| ensures Strength(Ranks[i]) == i {
      if i < 5 {
        assert i == 0 || i == 1 || i == 2 || i == 3 || i == 4;
      } else {
        assert i == 5 || i == 6 || i == 7 || i == 8 || i == 9;
      }
    }
  }

  /** A hand of cards and its rank. The rank is a plain field that checkers may overwrite later. */
  datatype PokerHand = PokerHand(cards: seq<Card>, rank: HandRank)

  /** What the constructor guarantees of every hand it builds. */
  predicate ValidHand(h: PokerHand) {
    |h.cards| >= 5
  }

  /** The validating constructor: fewer than five cards are refused, otherwise the cards are copied in order. */
  function NewPokerHand(cards: seq<Card>, rank: HandRank): (r: Result<PokerHand>)
    ensures r.Failure? <==> |cards| < 5
    ensures r.Failure? ==> r.error == TooFewCards
    ensures r.Success? ==> r.value == PokerHand(cards, rank) && ValidHand(r.value)
  {
    if |cards| < 5 then Failure(TooFewCards) else Success(PokerHand(cards, rank))
  }

  /** Overwriting the rank of a built hand keeps its cards and so keeps it valid. */
  lemma RelabelKeepsCards(cards: seq<Card>, rank: HandRank, other: HandRank)
    requires NewPokerHand(cards, rank).Success?
    ensures NewPokerHand(cards, rank).value.(rank := other) == NewPokerHand(cards, other).value
    ensures ValidHand(NewPokerHand(cards, rank).value.(rank := other))
  {
  }
}

=== FILE: royal_flush_checker.dfy ===
/**
 * The royal-flush checker: keep the cards above Ten, give up unless `handSize` of
 * them remain, run the straight-flush checker on them and relabel its hand RoyalFlush.
 * Because the filter drops the Ten, no more than four values survive it, so the
 * checker can never find a hand of five or more cards.
 */
module RoyalFlushChecker {
  import opened Wrappers
  import opened PlayingCard
  import opened Seqs
  import opened PokerHands
  import opened CardRanks
  import FlushChecker
  import StraightChecker
  import StraightFlushChecker

  /** The pool's cards whose value is above Ten, in pool order. */
  function RoyalCards(s: seq<Card>): (r: seq<Card>)
    ensures |r| <= |s|
    decreases |s|
  {
    if s == [] then []
    else RoyalCards(s[..|s| - 1]) + (if s[|s| - 1].value > Ten then [s[|s| - 1]] else [])
  }

  /** The filter keeps exactly the cards above Ten, in pool order. */
  lemma {:induction false} RoyalCardsMembers(s: seq<Card>)
    ensures forall c :: c in RoyalCards(s) <==> c in s && c.value > Ten
    ensures Subsequence(RoyalCards(s), s)
    decreases |s|
  {
    if s == [] {
      SubsequenceReflexive(s);
    } else {
      var s' := s[..|s| - 1];
      var c := s[|s| - 1];
      RoyalCardsMembers(s');
      assert s == s' + [c];
      SubsequenceExtend(RoyalCards(s'), s', c);
      if c.value > Ten {
        assert RoyalCards(s) == RoyalCards(s') + [c];
      } else {
        assert RoyalCards(s) == RoyalCards(s');
      }
    }
  }

  /** The checker's answer: the straight-flush checker's hand on the filtered cards, relabelled. */
  function RoyalFlushHand(s: seq<Card>, n: nat): Option<PokerHand>
    requires n >= 5
  {
    var royal := RoyalCards(s);
    if !EnoughCards(royal, n) then None
    else
      match StraightFlushChecker.StraightFlushHand(royal, n)
      case None => None
      case Some(h) => Some(h.(rank := RoyalFlush))
  }

  /** One call of the checker. */
  method CheckHand(cards: seq<Card>, handSize: nat) returns (r: Option<PokerHand>)
    requires handSize >= 5
    ensures r == RoyalFlushHand(cards, handSize)
  {
    var royalCards := RoyalCards(cards);
    if !EnoughCards(royalCards, handSize) {
      return None;
    }
    var hand := StraightFlushChecker.CheckHand(royalCards, handSize);
    if hand.Some? {
      hand := Some(hand.value.(rank := RoyalFlush));
    }
    return hand;
  }

  /**
   * A royal flush is found exactly when at least `n` cards are above Ten and some
   * suit's cards above Ten make a straight.
   */
  lemma RoyalFlushFinds(s: seq<Card>, n: nat)
    requires n >= 5
    ensures RoyalFlushHand(s, n).Some? <==>
      |RoyalCards(s)| >= n && exists t :: StraightChecker.StraightHand(FlushChecker.SuitCards(RoyalCards(s), t), n).Some?
  {
    StraightFlushChecker.StraightFlushFinds(RoyalCards(s), n);
  }

  /** A found hand has `n` cards of one suit, all above Ten and from the pool, and is tagged RoyalFlush. */
  lemma RoyalFlushShape(s: seq<Card>, n: nat)
    requires n >= 5 && RoyalFlushHand(s, n).Some?
    ensures var h := RoyalFlushHand(s, n).value;
      && h.rank == RoyalFlush && |h.cards| == n && ValidHand(h)
      && (forall c :: c in h.cards ==> c in s && c.value > Ten && c.suit == h.cards[0].suit)
  {
    var royal := RoyalCards(s);
    RoyalCardsMembers(s);
    StraightFlushChecker.StraightFlushShape(royal, n);
  }

  /** No hand of five or more cards can be a royal flush: the cards left have at most four values. */
  lemma RoyalNeverMatches(s: seq<Card>, n: nat)
    requires n >= 5
    ensures RoyalFlushHand(s, n) == None
  {
    var royal := RoyalCards(s);
    RoyalCardsMembers(s);
    forall t ensures StraightChecker.StraightHand(FlushChecker.SuitCards(royal, t), n) == None {
      FlushChecker.SuitCardsMembers(royal, t);
      StraightChecker.NoStraightAboveTen(FlushChecker.SuitCards(royal, t), n);
    }
    RoyalFlushFinds(s, n);
  }
}

=== FILE: seqs.dfy ===
/** Facts about sequences shared by the collection and the hand checkers. */
module Seqs {

  /** No element occurs twice. */
  predicate NoDuplicates<T(==)>(s: seq<T>) {
    forall i, j :: 0 <= i < j < |s| ==> s[i] != s[j]
  }

  /** `a` is obtained from `b` by deleting elements: the elements of `a` occur in `b`, in the same order. */
  predicate Subsequence<T(==)>(a: seq<T>, b: seq<T>)
    decreases |b|
  {
    if a == [] then true
    else if b == [] then false
    else (a[|a| - 1] == b[|b| - 1] && Subsequence(a[..|a| - 1], b[..|b| - 1]))
         || Subsequence(a, b[..|b| - 1])
  }

  /** A non-empty sequence is its front followed by its last element. */
  lemma LastSplit<T>(s: seq<T>)
    requires s != []
    ensures s == s[..|s| - 1] + [s[|s| - 1]]
  {
  }

  /** A non-empty sequence is its first element followed by the rest. */
  lemma HeadSplit<T>(s: seq<T>)
    requires s != []
    ensures s == [s[0]] + s[1..]
  {
  }

  /** Dropping the element just appended gives back the sequence. */
  lemma AppendLast<T>(a: seq<T>, x: T)
    ensures (a + [x])[..|a|] == a && (a + [x])[|a|] == x
  {
  }

  /** A prefix one longer is the shorter prefix followed by the next element. */
  lemma PrefixStep<T>(s: seq<T>, k: nat)
    requires k < |s|
    ensures s[..k + 1] == s[..k] + [s[k]]
  {
  }

  /** A prefix of a longer prefix is the shorter prefix. */
  lemma PrefixOfPrefix<T>(s: seq<T>, k: nat, m: nat)
    requires k <= m <= |s|
    ensures s[..m][..k] == s[..k]
  {
  }

  /** Deleting position `p > 0` commutes with splitting off the head. */
  lemma DeleteAfterHead<T>(s: seq<T>, p: nat)
    requires 0 < p < |s|
    ensures [s[0]] + (s[1..][..p - 1] + s[1..][p..]) == s[..p] + s[p + 1..]
  {
    assert [s[0]] + s[1..][..p - 1] == s[..p];
    assert s[1..][p..] == s[p + 1..];
  }

  /** Appending to the longer sequence, or to both, keeps a subsequence a subsequence. */
  lemma SubsequenceExtend<T>(a: seq<T>, b: seq<T>, x: T)
    requires Subsequence(a, b)
    ensures Subsequence(a, b + [x])
    ensures Subsequence(a + [x], b + [x])
  {
    assert (b + [x])[..|b|] == b;
    assert (a + [x])[..|a|] == a;
  }

  lemma {:induction false} SubsequenceReflexive<T>(a: seq<T>)
    ensures Subsequence(a, a)
    decreases |a|
  {
    if a != [] {
      SubsequenceReflexive(a[..|a| - 1]);
    }
  }

  /** Every element of a subsequence is an element of the sequence it was taken from. */
  lemma {:induction false} SubsequenceMembers<T>(a: seq<T>, b: seq<T>)
    requires Subsequence(a, b)
    ensures |a| <= |b|
    ensures forall x :: x in a ==> x in b
    decreases |b|
  {
    if a != [] {
      var a', b' := a[..|a| - 1], b[..|b| - 1];
      if a[|a| - 1] == b[|b| - 1] && Subsequence(a', b') {
        SubsequenceMembers(a', b');
        assert a == a' + [a[|a| - 1]] && b == b' + [b[|b| - 1]];
      } else {
        SubsequenceMembers(a, b');
        assert b == b' + [b[|b| - 1]];
      }
    }
  }

  /** A prefix of a subsequence is a subsequence. */
  lemma {:induction false} SubsequencePrefix<T>(a: seq<T>, b: seq<T>, k: nat)
    requires Subsequence(a, b) && k <= |a|
    ensures Subsequence(a[..k], b)
    decreases |b|
  {
    if k < |a| {
      var a', b' := a[..|a| - 1], b[..|b| - 1];
      if a[|a| - 1] == b[|b| - 1] && Subsequence(a', b') {
        SubsequencePrefix(a', b', k);
        assert a'[..k] == a[..k];
      } else {
        SubsequencePrefix(a, b', k);
      }
    } else {
      assert a[..k] == a;
    }
  }

  /** A subsequence of a duplicate-free sequence is duplicate-free. */
  lemma {:induction false} SubsequenceNoDuplicates<T>(a: seq<T>, b: seq<T>)
    requires Subsequence(a, b) && NoDuplicates(b)
    ensures NoDuplicates(a)
    decreases |b|
  {
    if a != [] {
      var a', b' := a[..|a| - 1], b[..|b| - 1];
      assert NoDuplicates(b');
      if a[|a| - 1] == b[|b| - 1] && Subsequence(a', b') {
        SubsequenceNoDuplicates(a', b');
        SubsequenceMembers(a', b');
        forall i | 0 <= i < |a'| ensures a'[i] != a[|a| - 1] {
          assert a'[i] in b';
        }
        assert a == a' + [a[|a| - 1]];
      } else {
        SubsequenceNoDuplicates(a, b');
      }
    }
  }

  /** A duplicate-free sequence has as many distinct elements as it has positions. */
  lemma {:induction false} NoDuplicatesCardinality<T>(s: seq<T>)
    requires NoDuplicates(s)
    ensures |set x | x in s| == |s|
    decreases |s|
  {
    if s != [] {
      var s' := s[..|s| - 1];
      NoDuplicatesCardinality(s');
      assert s == s' + [s[|s| - 1]];
      assert (set x | x in s) == (set x | x in s') + {s[|s| - 1]};
      assert s[|s| - 1] !in s';
    }
  }

  /** In a duplicate-free sequence every element occurs exactly once. */
  lemma {:induction false} NoDuplicatesMultiplicity<T>(s: seq<T>, x: T)
    requires NoDuplicates(s)
    ensures multiset(s)[x] == if x in s then 1 else 0
    decreases |s|
  {
    if s != [] {
      var s' := s[..|s| - 1];
      assert NoDuplicates(s');
      NoDuplicatesMultiplicity(s', x);
      assert s == s' + [s[|s| - 1]];
      assert s[|s| - 1] !in s';
    }
  }
}

=== FILE: set_checkers.dfy ===
/**
 * The checkers for hands built from value groups: four of a kind, full house,
 * three of a kind, two pair and pair. They share one algorithm and differ only in
 * the two group sizes they require and the rank they report.
 */
module SetCheckers {
  import opened Wrappers
  import opened PlayingCard
  import opened Seqs
  import opened PokerHands
  import opened CardRanks

  /** The five subclasses of the set checker. */
  datatype SetChecker =
    | FourOfAKindChecker
    | FullHouseChecker
    | ThreeOfAKindChecker
    | TwoPairChecker
    | PairChecker

  /** The size the largest group must reach. */
  function SetSizeOne(k: SetChecker): nat {
    match k
    case FourOfAKindChecker => 4
    case FullHouseChecker => 3
    case ThreeOfAKindChecker => 3
    case TwoPairChecker => 2
    case PairChecker => 2
  }

  /** The size the second largest group must reach; 0 means no second group is needed. */
  function SetSizeTwo(k: SetChecker): nat {
    match k
    case FullHouseChecker => 2
    case TwoPairChecker => 2
    case _ => 0
  }

  /** The rank a hand found by this checker is tagged with. */
  function SetRank(k: SetChecker): HandRank {
    match k
    case FourOfAKindChecker => FourOfAKind
    case FullHouseChecker => FullHouse
    case ThreeOfAKindChecker => ThreeOfAKind
    case TwoPairChecker => TwoPair
    case PairChecker => Pair
  }

  /** The group a chosen key stands for; no key yet stands for the empty list the sets start as. */
  function SetOf(s: seq<Card>, key: Option<int>): seq<Card> {
    if key.None? then [] else WithValue(s, key.value)
  }

  /**
   * The keys of the largest and second largest groups, chosen by walking `keys`
   * with strict comparisons: a later group replaces an earlier one only when it is
   * strictly larger, and a displaced largest group becomes the second.
   */
  function Pick(s: seq<Card>, keys: seq<int>): (p: (Option<int>, Option<int>))
    decreases |keys|
  {
    if keys == [] then (None, None)
    else
      var (hi, se) := Pick(s, keys[..|keys| - 1]);
      var k := keys[|keys| - 1];
      var size := |WithValue(s, k)|;
      if size > |SetOf(s, hi)| then (Some(k), hi)
      else if size > |SetOf(s, se)| then (hi, Some(k))
      else (hi, se)
  }

  /** Every key names a non-empty group, as the keys of the rank dictionary do. */
  predicate NonEmptyGroups(s: seq<Card>, keys: seq<int>) {
    forall k :: k in keys ==> WithValue(s, k) != []
  }

  /** `hi` names a largest group and `se` a largest group among the others; both are keys when present. */
  predicate TopTwo(s: seq<Card>, keys: seq<int>, hi: Option<int>, se: Option<int>) {
    && (hi.Some? <==> keys != [])
    && (hi.Some? ==> hi.value in keys)
    && (se.Some? ==> se.value in keys && se != hi)
    && (forall k :: k in keys ==> |WithValue(s, k)| <= |SetOf(s, hi)|)
    && (forall k :: k in keys && Some(k) != hi ==> |WithValue(s, k)| <= |SetOf(s, se)|)
  }

  /** Among groups of the same size, the earlier key wins each place. */
  predicate EarliestWins(s: seq<Card>, keys: seq<int>, hi: Option<int>, se: Option<int>) {
    && (forall i, j :: 0 <= i < j < |keys| && Some(keys[j]) == hi ==>
          |WithValue(s, keys[i])| < |SetOf(s, hi)|)
    && (forall i, j :: 0 <= i < j < |keys| && Some(keys[j]) == se && Some(keys[i]) != hi ==>
          |WithValue(s, keys[i])| < |SetOf(s, se)|)
  }

  /** One more key keeps the top-two facts. */
  lemma PickStepTopTwo(s: seq<Card>, ks: seq<int>, k: int)
    requires k !in ks && WithValue(s, k) != []
    requires var (hi, se) := Pick(s, ks); TopTwo(s, ks, hi, se)
    ensures var (hi, se) := Pick(s, ks + [k]); TopTwo(s, ks + [k], hi, se)
  {
    assert (ks + [k])[..|ks|] == ks;
  }

  /** One more key keeps the first key ahead of every other group of its size. */
  lemma PickStepEarliestHigh(s: seq<Card>, ks: seq<int>, k: int)
    requires k !in ks && WithValue(s, k) != []
    requires var (hi, se) := Pick(s, ks); TopTwo(s, ks, hi, se) && EarliestWins(s, ks, hi, se)
    ensures var (hi, se) := Pick(s, ks + [k]);
      forall i, j :: 0 <= i < j < |ks + [k]| && Some((ks + [k])[j]) == hi ==>
        |WithValue(s, (ks + [k])[i])| < |SetOf(s, hi)|
  {
    var keys := ks + [k];
    assert keys[..|ks|] == ks;
    var (h0, e0) := Pick(s, ks);
    var hi := Pick(s, keys).0;
    forall i, j | 0 <= i < j < |keys| && Some(keys[j]) == hi
      ensures |WithValue(s, keys[i])| < |SetOf(s, hi)|
    {
      assert keys[i] == ks[i];
      if j == |ks| {
        assert hi == Some(k) && hi != h0;
        assert keys[i] in ks;
      } else {
        assert keys[j] == ks[j];
        assert hi == h0;
      }
    }
  }

  /** One more key keeps the second key ahead of every other group of its size outside the first. */
  lemma PickStepEarliestSecond(s: seq<Card>, ks: seq<int>, k: int)
    requires k !in ks && WithValue(s, k) != []
    requires var (hi, se) := Pick(s, ks); TopTwo(s, ks, hi, se) && EarliestWins(s, ks, hi, se)
    ensures var (hi, se) := Pick(s, ks + [k]);
      forall i, j :: 0 <= i < j < |ks + [k]| && Some((ks + [k])[j]) == se && Some((ks + [k])[i]) != hi ==>
        |WithValue(s, (ks + [k])[i])| < |SetOf(s, se)|
  {
    var keys := ks + [k];
    assert keys[..|ks|] == ks;
    var (h0, e0) := Pick(s, ks);
    var (hi, se) := Pick(s, keys);
    var size := |WithValue(s, k)|;
    forall i, j | 0 <= i < j < |keys| && Some(keys[j]) == se && Some(keys[i]) != hi
      ensures |WithValue(s, keys[i])| < |SetOf(s, se)|
    {
      assert keys[i] == ks[i] && keys[i] in ks;
      if size > |SetOf(s, h0)| {
        assert se == h0 && j < |ks| && keys[j] == ks[j];
      } else if size > |SetOf(s, e0)| {
        assert hi == h0 && se == Some(k);
      } else {
        assert hi == h0 && se == e0 && j < |ks| && keys[j] == ks[j];
      }
    }
  }

  /** One more key keeps the earliest-wins facts. */
  lemma PickStepEarliest(s: seq<Card>, ks: seq<int>, k: int)
    requires k !in ks && WithValue(s, k) != []
    requires var (hi, se) := Pick(s, ks); TopTwo(s, ks, hi, se) && EarliestWins(s, ks, hi, se)
    ensures var (hi, se) := Pick(s, ks + [k]); EarliestWins(s, ks + [k], hi, se)
  {
    PickStepEarliestHigh(s, ks, k);
    PickStepEarliestSecond(s, ks, k);
  }

  /**
   * The choice is a stable top two: the first key is a largest group and precedes
   * every other group of that size; the second is a largest group among the rest
   * and precedes every other group of its size there.
   */
  lemma {:induction false} PickTopTwo(s: seq<Card>, keys: seq<int>)
    requires NoDuplicates(keys) && NonEmptyGroups(s, keys)
    ensures var (hi, se) := Pick(s, keys); TopTwo(s, keys, hi, se) && EarliestWins(s, keys, hi, se)
    decreases |keys|
  {
    if keys != [] {
      var ks := keys[..|keys| - 1];
      var k := keys[|keys| - 1];
      assert keys == ks + [k];
      assert NoDuplicates(ks);
      PickTopTwo(s, ks);
      PickStepTopTwo(s, ks, k);
      PickStepEarliest(s, ks, k);
    }
  }

  /** The cards pre-placed in the hand: both sets, higher value first, but only when they have the same size. */
  function Placed(hi: seq<Card>, se: seq<Card>): seq<Card>
    requires |hi| == |se| ==> |hi| >= 2
  {
    if |hi| == |se| then
      (if hi[0].value < se[1].value then se + hi else hi + se)
    else []
  }

  /**
   * Completes `hand` from `pool` in pool order, skipping cards already in the hand,
   * and stops as soon as the hand has `n` cards; None when the pool runs out first.
   */
  function Fill(hand: seq<Card>, pool: seq<Card>, n: nat): (r: Option<seq<Card>>)
    requires |hand| < n
    ensures r.Some? ==> |r.value| == n && r.value[..|hand|] == hand
    ensures r.Some? ==> forall c :: c in r.value ==> c in hand || c in pool
    ensures r.Some? && NoDuplicates(hand) ==> NoDuplicates(r.value)
    decreases |pool|
  {
    if pool == [] then None
    else if pool[0] in hand then Fill(hand, pool[1..], n)
    else if |hand| + 1 == n then Some(hand + [pool[0]])
    else
      var r := Fill(hand + [pool[0]], pool[1..], n);
      assert r.Some? ==> r.value[..|hand|] == (hand + [pool[0]])[..|hand|];
      r
  }

  /** The set checker's answer: no hand, a hand tagged with the checker's rank, or the "could not build" failure. */
  function CheckSet(kind: SetChecker, s: seq<Card>, n: nat): Result<Option<PokerHand>>
    requires n >= 5
  {
    if !EnoughCards(s, n) then Success(None)
    else
      var (h, e) := Pick(s, RankOrder(s));
      var hi := SetOf(s, h);
      var se := SetOf(s, e);
      if |hi| < SetSizeOne(kind) then Success(None)
      else if SetSizeTwo(kind) > 0 && |se| < SetSizeTwo(kind) then Success(None)
      else
        var pre := Placed(hi, se);
        if |pre| > n then Success(Some(PokerHand(pre[..5], SetRank(kind))))
        else if |pre| == n then Success(Some(PokerHand(pre, SetRank(kind))))
        else
          match Fill(pre, s, n)
          case None => Failure(CannotBuildHand)
          case Some(cards) => Success(Some(PokerHand(cards, SetRank(kind))))
  }

  /** The loop choosing the two largest groups, walking the keys in enumeration order. */
  method ChooseSets(cards: seq<Card>, order: seq<int>, groups: map<int, seq<Card>>)
    returns (highSet: seq<Card>, secondHighSet: seq<Card>)
    requires forall v :: v in order ==> v in groups
    requires forall v :: v in groups ==> groups[v] == WithValue(cards, v)
    ensures highSet == SetOf(cards, Pick(cards, order).0)
    ensures secondHighSet == SetOf(cards, Pick(cards, order).1)
  {
    highSet := [];
    secondHighSet := [];
    for i := 0 to |order|
      invariant highSet == SetOf(cards, Pick(cards, order[..i]).0)
      invariant secondHighSet == SetOf(cards, Pick(cards, order[..i]).1)
      invariant forall v :: v in order ==> v in groups
      invariant forall v :: v in groups ==> groups[v] == WithValue(cards, v)
    {
      assert order[..i + 1][..i] == order[..i];
      var group := groups[order[i]];
      if |group| > |highSet| {
        secondHighSet := highSet;
        highSet := group;
      } else if |group| > |secondHighSet| {
        secondHighSet := group;
      }
    }
    assert order[..|order|] == order;
  }

  /** The loop adding pool cards not yet in the hand until it holds `handSize` cards. */
  method FillHand(cardsInHand: seq<Card>, cards: seq<Card>, handSize: nat) returns (r: Option<seq<Card>>)
    requires |cardsInHand| < handSize
    ensures r == Fill(cardsInHand, cards, handSize)
  {
    var hand := cardsInHand;
    for i := 0 to |cards|
      invariant |hand| < handSize
      invariant Fill(cardsInHand, cards, handSize) == Fill(hand, cards[i..], handSize)
    {
      assert cards[i..][1..] == cards[i + 1..];
      if cards[i] in hand {
        continue;
      }
      hand := hand + [cards[i]];
      if |hand| == handSize {
        return Some(hand);
      }
    }
    return None;
  }

  /**
   * One call of the checker. The two sets start empty on every call (the class
   * keeps them in fields that are only cleared on success; here they are locals).
   */
  method CheckHand(kind: SetChecker, cards: seq<Card>, handSize: nat) returns (r: Result<Option<PokerHand>>)
    requires handSize >= 5
    ensures r == CheckSet(kind, cards, handSize)
  {
    if !EnoughCards(cards, handSize) {
      return Success(None);
    }
    var order, groups := GetCardRanks(cards);
    var highSet, secondHighSet := ChooseSets(cards, order, groups);
    if |highSet| < SetSizeOne(kind) {
      return Success(None);
    }
    if SetSizeTwo(kind) > 0 && |secondHighSet| < SetSizeTwo(kind) {
      return Success(None);
    }
    var cardsInHand: seq<Card> := [];
    if |highSet| == |secondHighSet| {
      if highSet[0].value < secondHighSet[1].value {
        cardsInHand := secondHighSet + highSet;
      } else {
        cardsInHand := highSet + secondHighSet;
      }
    }
    assert cardsInHand == Placed(highSet, secondHighSet);
    if |cardsInHand| > handSize {
      return Success(Some(PokerHand(cardsInHand[..5], SetRank(kind))));
    }
    if |cardsInHand| == handSize {
      return Success(Some(PokerHand(cardsInHand, SetRank(kind))));
    }
    var filled := FillHand(cardsInHand, cards, handSize);
    if filled.None? {
      // The source throws "could not build poker hand" here.
      return Failure(CannotBuildHand);
    }
    return Success(Some(PokerHand(filled.value, SetRank(kind))));
  }

  /** The pool holds a group of the first size and, when a second is needed, another group of the second size. */
  predicate HasSets(kind: SetChecker, s: seq<Card>) {
    exists k1 :: k1 in RankOrder(s) && |WithValue(s, k1)| >= SetSizeOne(kind) &&
      (SetSizeTwo(kind) > 0 ==>
        exists k2 :: k2 in RankOrder(s) && k2 != k1 && |WithValue(s, k2)| >= SetSizeTwo(kind))
  }

  /** The keys of the rank dictionary name non-empty groups. */
  lemma RankKeysNonEmpty(s: seq<Card>)
    ensures NonEmptyGroups(s, RankOrder(s))
  {
    forall k | k in RankOrder(s) ensures WithValue(s, k) != [] {
      RankOrderMembers(s, k);
    }
  }

  /** The chosen sets pass the size tests exactly when the pool has the required groups. */
  lemma ChosenSetsQualify(kind: SetChecker, s: seq<Card>)
    ensures var (h, e) := Pick(s, RankOrder(s));
      (|SetOf(s, h)| >= SetSizeOne(kind) && (SetSizeTwo(kind) > 0 ==> |SetOf(s, e)| >= SetSizeTwo(kind)))
      <==> HasSets(kind, s)
  {
    var keys := RankOrder(s);
    RankKeysNonEmpty(s);
    PickTopTwo(s, keys);
    if HasSets(kind, s) {
      HasSetsChosen(kind, s);
    }
  }

  /** Required groups in the pool make the chosen sets large enough. */
  lemma HasSetsChosen(kind: SetChecker, s: seq<Card>)
    requires HasSets(kind, s)
    requires var (h, e) := Pick(s, RankOrder(s)); TopTwo(s, RankOrder(s), h, e)
    ensures var (h, e) := Pick(s, RankOrder(s));
      |SetOf(s, h)| >= SetSizeOne(kind) && (SetSizeTwo(kind) > 0 ==> |SetOf(s, e)| >= SetSizeTwo(kind))
  {
    var keys := RankOrder(s);
    var (h, e) := Pick(s, keys);
    var k1 :| k1 in keys && |WithValue(s, k1)| >= SetSizeOne(kind) &&
      (SetSizeTwo(kind) > 0 ==>
        exists k2 :: k2 in keys && k2 != k1 && |WithValue(s, k2)| >= SetSizeTwo(kind));
    if SetSizeTwo(kind) > 0 {
      var k2 :| k2 in keys && k2 != k1 && |WithValue(s, k2)| >= SetSizeTwo(kind);
      if Some(k1) == h {
        assert |SetOf(s, e)| >= |WithValue(s, k2)|;
      } else {
        assert |SetOf(s, e)| >= |WithValue(s, k1)|;
      }
    }
  }

  /**
   * The checker finds no hand exactly when the pool is too small or lacks the
   * required groups; in every other case it reports a hand or fails to complete one.
   */
  lemma SetCheckerFinds(kind: SetChecker, s: seq<Card>, n: nat)
    requires n >= 5
    ensures CheckSet(kind, s, n) == Success(None) <==> |s| < n || !HasSets(kind, s)
  {
    ChosenSetsQualify(kind, s);
  }

  /** The number of pool cards not in the hand. */
  function Unplaced(hand: seq<Card>, pool: seq<Card>): nat
    decreases |pool|
  {
    if pool == [] then 0 else (if pool[0] in hand then 0 else 1) + Unplaced(hand, pool[1..])
  }

  /** A hand card that the pool does not hold changes nothing. */
  lemma {:induction false} UnplacedExtend(hand: seq<Card>, x: Card, pool: seq<Card>)
    requires x !in pool
    ensures Unplaced(hand + [x], pool) == Unplaced(hand, pool)
    decreases |pool|
  {
    if pool != [] {
      UnplacedExtend(hand, x, pool[1..]);
    }
  }

  /** Each card in the hand hides at most one card of a duplicate-free pool. */
  lemma {:induction false} UnplacedBound(hand: seq<Card>, pool: seq<Card>)
    requires NoDuplicates(pool)
    ensures Unplaced(hand, pool) + |hand| >= |pool|
    decreases |hand|
  {
    if hand == [] {
      UnplacedEmpty(pool);
    } else {
      var h := hand[..|hand| - 1];
      UnplacedBound(h, pool);
      UnplacedGrow(h, hand[|hand| - 1], pool);
      assert hand == h + [hand[|hand| - 1]];
    }
  }

  lemma {:induction false} UnplacedEmpty(pool: seq<Card>)
    ensures Unplaced([], pool) == |pool|
    decreases |pool|
  {
    if pool != [] {
      UnplacedEmpty(pool[1..]);
    }
  }

  lemma {:induction false} UnplacedGrow(hand: seq<Card>, x: Card, pool: seq<Card>)
    requires NoDuplicates(pool)
    ensures Unplaced(hand + [x], pool) + 1 >= Unplaced(hand, pool)
    decreases |pool|
  {
    if pool != [] {
      assert NoDuplicates(pool[1..]);
      if pool[0] == x {
        assert x !in pool[1..];
        UnplacedExtend(hand, x, pool[1..]);
      } else {
        UnplacedGrow(hand, x, pool[1..]);
      }
    }
  }

  /** Filling from a duplicate-free pool with enough unplaced cards always completes the hand. */
  lemma {:induction false} FillSucceeds(hand: seq<Card>, pool: seq<Card>, n: nat)
    requires |hand| < n <= |hand| + Unplaced(hand, pool)
    requires NoDuplicates(pool)
    ensures Fill(hand, pool, n).Some?
    decreases |pool|
  {
    assert NoDuplicates(pool[1..]);
    if pool[0] in hand {
      FillSucceeds(hand, pool[1..], n);
    } else if |hand| + 1 < n {
      assert pool[0] !in pool[1..];
      UnplacedExtend(hand, pool[0], pool[1..]);
      FillSucceeds(hand + [pool[0]], pool[1..], n);
    }
  }

  /** With no duplicate cards in the pool, the "could not build" failure cannot happen. */
  lemma DistinctPoolBuilds(kind: SetChecker, s: seq<Card>, n: nat)
    requires n >= 5 && NoDuplicates(s)
    ensures CheckSet(kind, s, n).Success?
  {
    if |s| >= n {
      var (h, e) := Pick(s, RankOrder(s));
      var hi := SetOf(s, h);
      var se := SetOf(s, e);
      if |hi| >= SetSizeOne(kind) && !(SetSizeTwo(kind) > 0 && |se| < SetSizeTwo(kind)) {
        var pre := Placed(hi, se);
        if |pre| < n {
          UnplacedBound(pre, s);
          FillSucceeds(pre, s, n);
        }
      }
    }
  }

  /**
   * A found hand carries the checker's rank, holds only pool cards, and has
   * `n` cards, except that pre-placed sets longer than `n` are cut to five.
   */
  lemma SetHandShape(kind: SetChecker, s: seq<Card>, n: nat)
    requires n >= 5
    requires CheckSet(kind, s, n).Success? && CheckSet(kind, s, n).value.Some?
    ensures var h := CheckSet(kind, s, n).value.value;
      var (hk, ek) := Pick(s, RankOrder(s));
      var pre := Placed(SetOf(s, hk), SetOf(s, ek));
      && h.rank == SetRank(kind)
      && ValidHand(h)
      && |h.cards| == (if |pre| > n then 5 else n)
      && forall c :: c in h.cards ==> c in s
  {
    var (hk, ek) := Pick(s, RankOrder(s));
    if hk.Some? {
      WithValueMembers(s, hk.value);
    }
    if ek.Some? {
      WithValueMembers(s, ek.value);
    }
  }

  /**
   * Unless the two chosen groups have the same size, nothing is pre-placed, so a
   * duplicate-free pool yields simply its first `n` cards, whatever they are.
   */
  lemma UnequalSetsTakePoolPrefix(kind: SetChecker, s: seq<Card>, n: nat)
    requires n >= 5 && NoDuplicates(s) && |s| >= n
    requires CheckSet(kind, s, n).Success? && CheckSet(kind, s, n).value.Some?
    requires var (h, e) := Pick(s, RankOrder(s)); |SetOf(s, h)| != |SetOf(s, e)|
    ensures CheckSet(kind, s, n).value.value.cards == s[..n]
  {
    FillPrefix([], s, n);
  }

  /** Filling a hand that shares no card with a duplicate-free pool takes the pool's front. */
  lemma {:induction false} FillPrefix(hand: seq<Card>, pool: seq<Card>, n: nat)
    requires |hand| < n <= |hand| + |pool|
    requires NoDuplicates(pool) && forall c :: c in pool ==> c !in hand
    ensures Fill(hand, pool, n) == Some(hand + pool[..n - |hand|])
    decreases |pool|
  {
    assert pool[0] in pool;
    if |hand| + 1 == n {
      assert pool[..1] == [pool[0]];
    } else {
      assert NoDuplicates(pool[1..]);
      assert forall c :: c in pool[1..] ==> c !in hand + [pool[0]];
      FillPrefix(hand + [pool[0]], pool[1..], n);
      assert hand + [pool[0]] + pool[1..][..n - |hand| - 1] == hand + pool[..n - |hand|];
    }
  }

  /**
   * When the two chosen groups have the same size, the hand starts with both,
   * higher value first; when together they are longer than the hand, the hand
   * is their first five cards.
   */
  lemma EqualSetsLead(kind: SetChecker, s: seq<Card>, n: nat)
    requires n >= 5 && |s| >= n
    requires CheckSet(kind, s, n).Success? && CheckSet(kind, s, n).value.Some?
    requires var (h, e) := Pick(s, RankOrder(s)); |SetOf(s, h)| == |SetOf(s, e)|
    ensures var (h, e) := Pick(s, RankOrder(s));
      var hi := SetOf(s, h);
      var se := SetOf(s, e);
      var cards := CheckSet(kind, s, n).value.value.cards;
      && h.Some? && e.Some?
      && (2 * |hi| <= n ==> cards[..2 * |hi|] == (if h.value < e.value then se + hi else hi + se))
      && (2 * |hi| > n ==> cards == (if h.value < e.value then se + hi else hi + se)[..5])
  {
    var (h, e) := Pick(s, RankOrder(s));
    var hi := SetOf(s, h);
    var se := SetOf(s, e);
    assert |hi| >= SetSizeOne(kind) >= 2;
    assert h.Some? && e.Some?;
    var pre := Placed(hi, se);
    WithValueMembers(s, h.value);
    WithValueMembers(s, e.value);
    assert hi[0] in hi && se[1] in se;
    assert pre == if h.value < e.value then se + hi else hi + se;
    PlacedLeads(kind, s, n);
  }

  /** Pre-placed cards that fit in the hand open it; longer ones are cut to their first five. */
  lemma PlacedLeads(kind: SetChecker, s: seq<Card>, n: nat)
    requires n >= 5 && |s| >= n
    requires CheckSet(kind, s, n).Success? && CheckSet(kind, s, n).value.Some?
    ensures var (h, e) := Pick(s, RankOrder(s));
      var pre := Placed(SetOf(s, h), SetOf(s, e));
      var cards := CheckSet(kind, s, n).value.value.cards;
      && (|pre| <= n ==> |pre| <= |cards| && cards[..|pre|] == pre)
      && (|pre| > n ==> cards == pre[..5])
  {
  }
}

=== FILE: straight_checker.dfy ===
/**
 * The straight checker: scan the values from Ace down to Two, extending a streak
 * with the first card of each value present and resetting it at each value
 * missing; the first streak of `handSize` cards wins. A streak of one card fewer
 * that ends on Two is completed by an Ace (the wheel, A-2-3-4-5).
 */
module StraightChecker {
  import opened Wrappers
  import opened PlayingCard
  import opened PokerHands
  import opened CardRanks

  /** `v` is one of the values the scan visits, and some card of the pool has it. */
  predicate HasValue(s: seq<Card>, v: int) {
    ValidValue(v) && WithValue(s, v) != []
  }

  /** How many consecutive values, starting at `v` and going up to Ace at most, are present in the pool. */
  function RunUp(s: seq<Card>, v: int): nat
    decreases Ace + 1 - v
  {
    if !HasValue(s, v) then 0 else 1 + RunUp(s, v + 1)
  }

  /** `RunUp` counts a block of consecutive values present in the pool and stops at the first one missing. */
  lemma {:induction false} RunUpMeaning(s: seq<Card>, v: int, len: nat)
    ensures RunUp(s, v) >= len <==> forall u :: v <= u < v + len ==> HasValue(s, u)
    decreases len
  {
    if len > 0 {
      RunUpMeaning(s, v + 1, len - 1);
      if HasValue(s, v) {
        assert RunUp(s, v) == 1 + RunUp(s, v + 1);
        assert (forall u :: v <= u < v + len ==> HasValue(s, u))
          ==> (forall u :: v + 1 <= u < v + 1 + (len - 1) ==> HasValue(s, u));
        if RunUp(s, v) >= len {
          forall u | v <= u < v + len ensures HasValue(s, u) {
            if u > v {
              assert v + 1 <= u < v + 1 + (len - 1);
            }
          }
        }
      } else {
        assert RunUp(s, v) == 0;
      }
    }
  }

  /** The first card of each value `lo + len - 1` down to `lo`: the streak the scan holds at `lo`. */
  function Run(s: seq<Card>, lo: int, len: nat): (r: seq<Card>)
    requires len <= RunUp(s, lo)
    ensures |r| == len
    decreases len
  {
    if len == 0 then [] else Run(s, lo + 1, len - 1) + [WithValue(s, lo)[0]]
  }

  /**
   * A run lists one card per value, descending by one from its top value, each the
   * first card of its value in the pool.
   */
  lemma {:induction false} RunFirsts(s: seq<Card>, lo: int, len: nat)
    requires len <= RunUp(s, lo)
    ensures forall i :: 0 <= i < len ==>
      Run(s, lo, len)[i].value == lo + len - 1 - i && [Run(s, lo, len)[i]] <= WithValue(s, Run(s, lo, len)[i].value)
    decreases len
  {
    if len > 0 {
      var above := lo + 1;
      RunFirsts(s, above, len - 1);
      var r := Run(s, lo, len);
      var r' := Run(s, above, len - 1);
      var g := WithValue(s, lo);
      assert r == r' + [g[0]];
      WithValueMembers(s, lo);
      assert g[0] in g;
      forall i | 0 <= i < len ensures r[i].value == lo + len - 1 - i && [r[i]] <= WithValue(s, r[i].value) {
        if i < len - 1 {
          assert r[i] == r'[i];
        } else {
          assert r[i] == g[0];
        }
      }
    }
  }

  /** Every card of a run comes from the pool. */
  lemma RunShape(s: seq<Card>, lo: int, len: nat)
    requires len <= RunUp(s, lo)
    ensures forall i :: 0 <= i < len ==>
      Run(s, lo, len)[i].value == lo + len - 1 - i && [Run(s, lo, len)[i]] <= WithValue(s, Run(s, lo, len)[i].value)
    ensures forall c :: c in Run(s, lo, len) ==> c in s
  {
    RunFirsts(s, lo, len);
    var r := Run(s, lo, len);
    forall i | 0 <= i < len ensures r[i] in s {
      var v := r[i].value;
      assert WithValue(s, v)[0] == r[i];
      WithValueMembers(s, v);
    }
  }

  /** Scanning down from `v`: the first value whose run upwards has exactly `n` cards. */
  function TopRun(s: seq<Card>, n: nat, v: int): (lo: Option<int>)
    ensures lo.Some? ==> MinValue <= lo.value <= v && RunUp(s, lo.value) == n
    decreases v
  {
    if v < MinValue then None
    else if RunUp(s, v) == n then Some(v)
    else TopRun(s, n, v - 1)
  }

  /** The straight found: the highest run of `n`, otherwise the wheel, otherwise none. */
  function StraightHand(s: seq<Card>, n: nat): Option<PokerHand>
    requires n >= 5
  {
    if !EnoughCards(s, n) then None
    else match TopRun(s, n, Ace)
      case Some(lo) => Some(PokerHand(Run(s, lo, n), Straight))
      case None =>
        if RunUp(s, MinValue) == n - 1 && HasValue(s, Ace) then
          Some(PokerHand(Run(s, MinValue, n - 1) + [WithValue(s, Ace)[0]], Straight))
        else None
  }

  /**
   * The scan over one value: the streak grows by the value's first card, or resets
   * when the value is missing.
   */
  lemma StreakStep(s: seq<Card>, v: int, above: int)
    requires MinValue <= v <= Ace && above == v + 1
    ensures !HasValue(s, v) ==> RunUp(s, v) == 0
    ensures HasValue(s, v) ==>
      && RunUp(s, v) == RunUp(s, above) + 1
      && Run(s, v, RunUp(s, v)) == Run(s, above, RunUp(s, above)) + [WithValue(s, v)[0]]
  {
  }

  /** The scan stops at a value exactly when its streak has reached `n` cards. */
  lemma ScanStops(s: seq<Card>, n: nat, v: int, above: int)
    requires MinValue <= v && above == v + 1
    ensures RunUp(s, v) == n ==> TopRun(s, n, above - 1) == Some(v)
    ensures RunUp(s, v) != n ==> TopRun(s, n, above - 1) == TopRun(s, n, v - 1)
  {
    var w := above - 1;
    assert w == v;
    assert TopRun(s, n, w) == if RunUp(s, v) == n then Some(v) else TopRun(s, n, v - 1);
  }

  /**
   * The scan from Ace down to Two over the rank dictionary: it stops at the first
   * streak of `handSize` cards, or ends holding the streak it has at Two.
   */
  method Scan(cards: seq<Card>, handSize: nat, groups: map<int, seq<Card>>) returns (streak: seq<Card>, complete: bool)
    requires handSize >= 5
    requires forall v :: v in groups <==> WithValue(cards, v) != []
    requires forall v :: v in groups ==> groups[v] == WithValue(cards, v)
    ensures complete ==> TopRun(cards, handSize, Ace).Some? && streak == Run(cards, TopRun(cards, handSize, Ace).value, handSize)
    ensures !complete ==> TopRun(cards, handSize, Ace) == None && streak == Run(cards, MinValue, RunUp(cards, MinValue))
  {
    assert |Values| == 13 by { ValuesAscending(); }
    streak := [];
    ghost var last := Ace + 1;
    for k := 0 to |Values|
      invariant last == Ace + 1 - k
      invariant streak == Run(cards, last, RunUp(cards, last))
      invariant TopRun(cards, handSize, Ace) == TopRun(cards, handSize, last - 1)
    {
      var value := Values[|Values| - 1 - k];
      assert value == last - 1 by { ValuesAscending(); }
      StreakStep(cards, value, last);
      ScanStops(cards, handSize, value, last);
      assert value in groups <==> HasValue(cards, value);
      if value in groups {
        streak := streak + [groups[value][0]];
        if |streak| == handSize {
          return streak, true;
        }
      } else {
        streak := [];
      }
      last := value;
    }
    return streak, false;
  }

  /** One call of the checker. */
  method CheckHand(cards: seq<Card>, handSize: nat) returns (r: Option<PokerHand>)
    requires handSize >= 5
    ensures r == StraightHand(cards, handSize)
  {
    if !EnoughCards(cards, handSize) {
      return None;
    }
    var order, groups := GetCardRanks(cards);
    forall v ensures v in groups <==> WithValue(cards, v) != [] {
      RankOrderMembers(cards, v);
    }
    var streak, complete := Scan(cards, handSize, groups);
    if complete {
      return Some(PokerHand(streak, Straight));
    }
    assert Ace in groups <==> HasValue(cards, Ace);
    RunShape(cards, MinValue, RunUp(cards, MinValue));
    if |streak| == handSize - 1 && streak[|streak| - 1].value == MinValue && Ace in groups {
      streak := streak + [groups[Ace][0]];
      return Some(PokerHand(streak, Straight));
    }
    return None;
  }

  /** Below a value whose run is shorter than `n`, a run of `n` can only start lower down. */
  lemma {:induction false} NoRunAbove(s: seq<Card>, n: nat, v: int)
    requires n >= 2 && v <= Ace
    requires forall w :: v < w <= Ace ==> RunUp(s, w) != n
    ensures forall w :: v < w <= Ace ==> RunUp(s, w) < n
    decreases Ace - v
  {
    if v < Ace {
      var u := v + 1;
      NoRunAbove(s, n, u);
      var above := u + 1;
      assert RunUp(s, u) <= RunUp(s, above) + 1;
      if above > Ace {
        assert RunUp(s, above) == 0;
      }
    }
  }

  /** The straight returned from the scan is the highest: no run of `n` values starts higher. */
  lemma {:induction false} StraightIsHighest(s: seq<Card>, n: nat)
    requires n >= 5
    ensures match TopRun(s, n, Ace)
      case Some(lo) => RunUp(s, lo) == n && forall w :: lo < w <= Ace ==> RunUp(s, w) < n
      case None => forall w :: MinValue <= w <= Ace ==> RunUp(s, w) < n
  {
    TopRunSkips(s, n, Ace);
    match TopRun(s, n, Ace)
    case Some(lo) =>
      NoRunAbove(s, n, lo);
    case None =>
      NoRunAbove(s, n, MinValue - 1);
  }

  /** The scan passes over every value it does not stop at. */
  lemma {:induction false} TopRunSkips(s: seq<Card>, n: nat, v: int)
    ensures TopRun(s, n, v).Some? ==> forall w :: TopRun(s, n, v).value < w <= v ==> RunUp(s, w) != n
    ensures TopRun(s, n, v).None? ==> forall w :: MinValue <= w <= v ==> RunUp(s, w) != n
    decreases v
  {
    if v >= MinValue && RunUp(s, v) != n {
      var below := v - 1;
      TopRunSkips(s, n, below);
      assert TopRun(s, n, v) == TopRun(s, n, below);
    }
  }

  /** A straight is found exactly when the pool is large enough and holds `n` consecutive values, or the wheel. */
  lemma StraightFinds(s: seq<Card>, n: nat)
    requires n >= 5
    ensures StraightHand(s, n).Some? <==>
      |s| >= n && ((exists lo :: MinValue <= lo <= Ace && RunUp(s, lo) >= n) || (RunUp(s, MinValue) >= n - 1 && HasValue(s, Ace)))
  {
    StraightIsHighest(s, n);
    if |s| >= n {
      match TopRun(s, n, Ace)
      case Some(lo) =>
        assert MinValue <= lo <= Ace && RunUp(s, lo) >= n;
      case None =>
    }
  }

  /** The cards of the wheel: the run from `n` down to Two, then the first Ace. */
  lemma WheelShape(s: seq<Card>, n: nat)
    requires n >= 5 && RunUp(s, MinValue) >= n - 1 && HasValue(s, Ace)
    ensures var w := Run(s, MinValue, n - 1) + [WithValue(s, Ace)[0]];
      && |w| == n
      && (forall c :: c in w ==> c in s)
      && (forall i :: 0 <= i < n ==> [w[i]] <= WithValue(s, w[i].value))
      && w[n - 1].value == Ace && (forall i :: 0 <= i < n - 1 ==> w[i].value == n - i)
  {
    var r := Run(s, MinValue, n - 1);
    var ace := WithValue(s, Ace)[0];
    var w := r + [ace];
    RunShape(s, MinValue, n - 1);
    WithValueMembers(s, Ace);
    assert ace in WithValue(s, Ace);
    forall i | 0 <= i < n
      ensures w[i] in s && [w[i]] <= WithValue(s, w[i].value) && (i < n - 1 ==> w[i].value == n - i)
    {
      if i < n - 1 {
        assert w[i] == r[i];
      } else {
        assert w[i] == ace;
      }
    }
  }

  /**
   * A found straight has `n` pool cards, one per value, each the first card of its
   * value in the pool: either `n` values descending by one, or the wheel, whose
   * values run from `n` down to Two and end with an Ace.
   */
  lemma StraightHandShape(s: seq<Card>, n: nat)
    requires n >= 5 && StraightHand(s, n).Some?
    ensures var h := StraightHand(s, n).value;
      && h.rank == Straight && |h.cards| == n && ValidHand(h)
      && (forall c :: c in h.cards ==> c in s)
      && (forall i :: 0 <= i < n ==> [h.cards[i]] <= WithValue(s, h.cards[i].value))
      && ((forall i :: 0 <= i < n ==> h.cards[i].value == h.cards[0].value - i)
          || (h.cards[n - 1].value == Ace && forall i :: 0 <= i < n - 1 ==> h.cards[i].value == n - i))
  {
    match TopRun(s, n, Ace)
    case Some(lo) =>
      RunShape(s, lo, n);
    case None =>
      WheelShape(s, n);
  }

  /** A run never climbs past Ace. */
  lemma {:induction false} RunUpBound(s: seq<Card>, v: int)
    requires v <= Ace + 1
    ensures RunUp(s, v) <= Ace + 1 - v
    decreases Ace + 1 - v
  {
    if HasValue(s, v) {
      var above := v + 1;
      RunUpBound(s, above);
    }
  }

  /**
   * A pool whose cards are all above Ten holds at most the four values Jack to Ace,
   * so it makes no straight of five or more cards, not even the wheel.
   */
  lemma NoStraightAboveTen(s: seq<Card>, n: nat)
    requires n >= 5
    requires forall c :: c in s ==> c.value > Ten
    ensures StraightHand(s, n) == None
  {
    forall v | v <= Ten ensures RunUp(s, v) == 0 {
      WithValueAbsent(s, v);
    }
    forall v | Ten < v <= Ace ensures RunUp(s, v) < n {
      RunUpBound(s, v);
    }
  }
}

=== FILE: straight_flush_checker.dfy ===
/**
 * The straight-flush checker: group the pool by suit, give up unless some suit has
 * `handSize` cards, run the straight checker on each suit group in suit order, and
 * report the straight whose first card is highest. The suit groups are four lists
 * built afresh on every call, in the order of `Suits`, as in the flush checker.
 */
module StraightFlushChecker {
  import opened Wrappers
  import opened CardSuits
  import opened PlayingCard
  import opened PokerHands
  import opened CardRanks
  import FlushChecker
  import StraightChecker

  /** The straight checker's answer for each suit group, in suit order. */
  function SuitResults(s: seq<Card>, n: nat): (rs: seq<Option<PokerHand>>)
    requires n >= 5
    ensures |rs| == |Suits|
  {
    seq(|Suits|, i requires 0 <= i < |Suits| => StraightChecker.StraightHand(FlushChecker.SuitCards(s, Suits[i]), n))
  }

  /** The hands among `rs`, in order. */
  function Found(rs: seq<Option<PokerHand>>): (hs: seq<PokerHand>)
    ensures |hs| <= |rs|
    decreases |rs|
  {
    if rs == [] then []
    else Found(rs[..|rs| - 1]) + match rs[|rs| - 1] case Some(h) => [h] case None => []
  }

  /** A hand is kept exactly when it is one of the answers, and each kept hand comes from an answer. */
  lemma {:induction false} FoundMembers(rs: seq<Option<PokerHand>>)
    ensures forall i :: 0 <= i < |rs| && rs[i].Some? ==> rs[i].value in Found(rs)
    ensures forall h :: h in Found(rs) ==> Some(h) in rs
    decreases |rs|
  {
    if rs != [] {
      var init := rs[..|rs| - 1];
      FoundMembers(init);
      var hs := Found(rs);
      var hs' := Found(init);
      var last := rs[|rs| - 1];
      assert rs == init + [last];
      assert hs == hs' + match last case Some(h) => [h] case None => [];
      forall i | 0 <= i < |rs| && rs[i].Some? ensures rs[i].value in hs {
        if i < |rs| - 1 {
          assert init[i] == rs[i];
        }
      }
    }
  }

  /** Keeping one more answer appends its hand, if any. */
  lemma FoundStep(rs: seq<Option<PokerHand>>, i: nat)
    requires i < |rs|
    ensures Found(rs[..i + 1]) == Found(rs[..i]) + match rs[i] case Some(h) => [h] case None => []
  {
    assert rs[..i + 1][..i] == rs[..i];
  }

  /** The straights the suit groups make, in suit order. */
  function SuitStraights(s: seq<Card>, n: nat): seq<PokerHand>
    requires n >= 5
  {
    Found(SuitResults(s, n))
  }

  /** Every straight found has `n` cards, all of one suit, all from the pool, and is tagged Straight. */
  lemma SuitStraightsShape(s: seq<Card>, n: nat)
    requires n >= 5
    ensures NonEmptyHands(SuitStraights(s, n))
    ensures forall k :: 0 <= k < |SuitStraights(s, n)| ==>
      var h := SuitStraights(s, n)[k];
      |h.cards| == n && h.rank == Straight && (forall c :: c in h.cards ==> c in s && c.suit == h.cards[0].suit)
  {
    var rs := SuitResults(s, n);
    var hs := Found(rs);
    FoundMembers(rs);
    forall k | 0 <= k < |hs|
      ensures |hs[k].cards| == n && hs[k].rank == Straight && (forall c :: c in hs[k].cards ==> c in s && c.suit == hs[k].cards[0].suit)
    {
      assert Some(hs[k]) in rs;
      var i :| 0 <= i < |rs| && rs[i] == Some(hs[k]);
      var t := Suits[i];
      var g := FlushChecker.SuitCards(s, t);
      assert StraightChecker.StraightHand(g, n) == Some(hs[k]);
      StraightChecker.StraightHandShape(g, n);
      FlushChecker.SuitCardsMembers(s, t);
      assert hs[k].cards[0] in hs[k].cards;
    }
  }

  /** Every hand has a first card. */
  predicate NonEmptyHands(hs: seq<PokerHand>) {
    forall i :: 0 <= i < |hs| ==> hs[i].cards != []
  }

  /** The position of the straight whose first card is highest; on ties the earliest such straight stays. */
  function HighestIndex(hs: seq<PokerHand>): (j: nat)
    requires hs != [] && NonEmptyHands(hs)
    ensures j < |hs|
    decreases |hs|
  {
    if |hs| == 1 then 0
    else
      var j := HighestIndex(hs[..|hs| - 1]);
      if hs[j].cards[0].value < hs[|hs| - 1].cards[0].value then |hs| - 1 else j
  }

  /** The chosen straight's first card is at least as high as any other's, and strictly higher than any earlier one's. */
  lemma {:induction false} HighestIsMax(hs: seq<PokerHand>)
    requires hs != [] && NonEmptyHands(hs)
    ensures forall i :: 0 <= i < |hs| ==> hs[i].cards[0].value <= hs[HighestIndex(hs)].cards[0].value
    ensures forall i :: 0 <= i < HighestIndex(hs) ==> hs[i].cards[0].value < hs[HighestIndex(hs)].cards[0].value
    decreases |hs|
  {
    if |hs| > 1 {
      var init := hs[..|hs| - 1];
      HighestIsMax(init);
      assert forall i :: 0 <= i < |init| ==> init[i] == hs[i];
    }
  }

  /** What the checker makes of the straights found: none, the only one as it is, or the highest relabelled. */
  function Choose(hs: seq<PokerHand>): Option<PokerHand>
    requires NonEmptyHands(hs)
  {
    if hs == [] then None
    else if |hs| == 1 then Some(hs[0])
    else Some(hs[HighestIndex(hs)].(rank := StraightFlush))
  }

  /** The checker's answer. */
  function StraightFlushHand(s: seq<Card>, n: nat): Option<PokerHand>
    requires n >= 5
  {
    if !EnoughCards(s, n) then None
    else if |FlushChecker.SuitCards(s, FlushChecker.MostInSuit(s).value)| < n then None
    else
      SuitStraightsShape(s, n);
      Choose(SuitStraights(s, n))
  }

  /** The scan for the highest straight among several. */
  method PickHighest(flushHands: seq<PokerHand>) returns (highest: PokerHand)
    requires flushHands != [] && NonEmptyHands(flushHands)
    ensures highest == flushHands[HighestIndex(flushHands)]
  {
    var best: Option<PokerHand> := None;
    for i := 0 to |flushHands|
      invariant i == 0 ==> best == None
      invariant i > 0 ==> best == Some(flushHands[HighestIndex(flushHands[..i])])
    {
      assert flushHands[..i + 1][..i] == flushHands[..i];
      if best.None? || best.value.cards[0].value < flushHands[i].cards[0].value {
        best := Some(flushHands[i]);
      }
    }
    assert flushHands[..|flushHands|] == flushHands;
    return best.value;
  }

  /** One call of the checker. */
  method CheckHand(cards: seq<Card>, handSize: nat) returns (r: Option<PokerHand>)
    requires handSize >= 5
    ensures r == StraightFlushHand(cards, handSize)
  {
    if !EnoughCards(cards, handSize) {
      return None;
    }
    var suitCards, mostInSuit := FlushChecker.GroupSuits(cards);
    if |suitCards[mostInSuit.value]| < handSize {
      return None;
    }
    ghost var rs := SuitResults(cards, handSize);
    var flushHands: seq<PokerHand> := [];
    for i := 0 to |Suits|
      invariant forall t :: t in suitCards && suitCards[t] == FlushChecker.SuitCards(cards, t)
      invariant flushHands == Found(rs[..i])
    {
      var hand := StraightChecker.CheckHand(suitCards[Suits[i]], handSize);
      FoundStep(rs, i);
      if hand.Some? {
        flushHands := flushHands + [hand.value];
      }
    }
    assert rs[..|Suits|] == rs;
    SuitStraightsShape(cards, handSize);
    if |flushHands| == 0 {
      return None;
    }
    if |flushHands| == 1 {
      return Some(flushHands[0]);
    }
    var highest := PickHighest(flushHands);
    return Some(highest.(rank := StraightFlush));
  }

  /** Some straight is found exactly when some suit's group makes one. */
  lemma SuitStraightsFound(s: seq<Card>, n: nat)
    requires n >= 5
    ensures SuitStraights(s, n) != [] <==> exists t :: StraightChecker.StraightHand(FlushChecker.SuitCards(s, t), n).Some?
  {
    var rs := SuitResults(s, n);
    var hs := Found(rs);
    FoundMembers(rs);
    if t :| StraightChecker.StraightHand(FlushChecker.SuitCards(s, t), n).Some? {
      var i := SuitIndex(t);
      assert rs[i].Some?;
      assert rs[i].value in hs;
    }
    if hs != [] {
      assert Some(hs[0]) in rs;
      var i :| 0 <= i < |rs| && rs[i] == Some(hs[0]);
      assert StraightChecker.StraightHand(FlushChecker.SuitCards(s, Suits[i]), n).Some?;
    }
  }

  /** A straight needs at least `n` cards in the group it is drawn from. */
  lemma StraightNeedsCards(g: seq<Card>, n: nat)
    requires n >= 5 && StraightChecker.StraightHand(g, n).Some?
    ensures |g| >= n
  {
  }

  /**
   * A straight flush is found exactly when the pool is large enough and some suit's
   * group makes a straight; the largest-suit test in front of the scan never changes
   * the answer.
   */
  lemma StraightFlushFinds(s: seq<Card>, n: nat)
    requires n >= 5
    ensures StraightFlushHand(s, n).Some? <==>
      |s| >= n && exists t :: StraightChecker.StraightHand(FlushChecker.SuitCards(s, t), n).Some?
  {
    SuitStraightsFound(s, n);
    if |s| >= n {
      if t :| StraightChecker.StraightHand(FlushChecker.SuitCards(s, t), n).Some? {
        StraightNeedsCards(FlushChecker.SuitCards(s, t), n);
        FlushChecker.MostInSuitLargest(s);
      }
    }
  }

  /**
   * A found hand has `n` pool cards of one suit. It keeps the tag Straight when only
   * one suit makes a straight, and is tagged StraightFlush when several do.
   */
  lemma StraightFlushShape(s: seq<Card>, n: nat)
    requires n >= 5 && StraightFlushHand(s, n).Some?
    ensures var h := StraightFlushHand(s, n).value;
      && |h.cards| == n && ValidHand(h)
      && (forall c :: c in h.cards ==> c in s && c.suit == h.cards[0].suit)
      && (h.rank == Straight <==> |SuitStraights(s, n)| == 1)
      && (h.rank == StraightFlush <==> |SuitStraights(s, n)| > 1)
  {
    SuitStraightsShape(s, n);
    var hs := SuitStraights(s, n);
    if |hs| > 1 {
      var j := HighestIndex(hs);
      assert StraightFlushHand(s, n).value.cards == hs[j].cards;
    }
  }

  /**
   * When several suits make a straight, the hand returned has the highest first card
   * among them, and every straight of an earlier suit has a strictly lower one.
   */
  lemma StraightFlushIsHighest(s: seq<Card>, n: nat)
    requires n >= 5 && StraightFlushHand(s, n).Some?
    requires |SuitStraights(s, n)| > 1
    ensures var h := StraightFlushHand(s, n).value;
      var hs := SuitStraights(s, n);
      && NonEmptyHands(hs)
      && (forall i :: 0 <= i < |hs| ==> hs[i].cards[0].value <= h.cards[0].value)
      && exists j :: 0 <= j < |hs| && hs[j] == h.(rank := Straight)
           && forall i :: 0 <= i < j ==> hs[i].cards[0].value < h.cards[0].value
  {
    var hs := SuitStraights(s, n);
    SuitStraightsShape(s, n);
    HighestIsMax(hs);
    var j := HighestIndex(hs);
    assert hs[j] == StraightFlushHand(s, n).value.(rank := Straight);
  }

  /**
   * The checker as the source writes it: the suit dictionary is declared but never
   * created, so clearing its lists fails whenever the pool has enough cards.
   */
  function StraightFlushHandAsWritten(s: seq<Card>, n: nat): (r: Result<Option<PokerHand>>)
    ensures r.Success? ==> r.value == None
  {
    if !EnoughCards(s, n) then Success(None) else Failure(NullReference)
  }

  /** Every pool in which the checker finds a straight flush makes the checker as written fail instead. */
  lemma StraightFlushAsWrittenFails(s: seq<Card>, n: nat)
    requires n >= 5 && StraightFlushHand(s, n).Some?
    ensures StraightFlushHandAsWritten(s, n) == Failure(NullReference)
  {
    StraightFlushFinds(s, n);
  }
}

=== FILE: wrappers.dfy ===
/** Optional values, results, and the kinds of failure the card library reports. */
module Wrappers {

  /** A value that may be absent: the library's `null` results. */
  datatype Option<+T> = None | Some(value: T)

  /** The exceptions the library throws, one constructor per kind. */
  datatype Error =
    | EmptyCollection    // drawing from a collection that holds no card
    | InsufficientCards  // dealing more cards than the deck holds
    | NoStringCode       // rendering a card value outside the supported range
    | TypeMismatch       // comparing a playing card with a card of another kind
    | TooFewCards        // building a poker hand from fewer than five cards
    | CannotBuildHand    // a set checker that runs out of pool cards
    | OutOfRange         // a list range or capacity argument the list rejects
    | KeyNotFound        // looking up a key a dictionary has no entry for
    | NullReference      // using a field that was never given an object

  /** Either a value or the failure that replaced it. */
  datatype Result<+T> = Success(value: T) | Failure(error: Error)
}
